=== FILE: README.md ===
# formidate, modelled in Dafny

formidate is a small TypeScript library for validating HTML forms on top of
validate.js. This project models its core and proves properties of the model:

- `ControlRules` (`Builder.dfy`, over the records of `Rules.dfy`) is a fluent
  builder. It accumulates one rule record per form field. Every step rewrites
  one rule kind of that record in place and returns the builder itself.
- `FormControl` (`Control.dfy`) is one field. It holds a name, a touched flag,
  error messages, a loading flag, a value and its rule builder. Its setters
  chain.
- The two validate.js extensions of `src/constants.ts` (`Constants.dfy`):
  - the `mapped` error formatter;
  - the synchronous `custom` validator.
- `FormGroup` is a set of named controls that are validated together:
  - `Group.dfy` is the class, whose methods change its fields and its controls
    in place.
  - `GroupSpec.dfy` gives the group's state as a value (`GroupState`), one
    transition function per operation, the invariant `WellFormed`, and the
    lemmas that relate operations.

Each class method is proved to perform exactly the transition of the same name
in `GroupSpec`, on the group's state read as a `GroupState`. Each one keeps the
class invariant `Valid()`, which has three parts:

- the state is well formed;
- the validity flag never claims validity while a considered control has errors
  or a pending check;
- no control object is shared by two names.

validate.js itself is a parameter:

- The synchronous `validate(values, rules)` is a function from values and rules
  to an optional error map. `None` stands for `undefined`.
- The promise of `validate.async(values, rules)` is a function to an outcome:
  - `Resolved`;
  - `Cancelled`, the reset indicator of a newer check of the same field;
  - `Rejected(errors)`;
  - `Thrown`, a rejection with an `Error`, which is rethrown.

`validate(event)` is modelled as its deferred handler run to completion, with
the promise settling as the outcome says.

Other modelling choices:

- **JavaScript values.** `null`/`undefined` values are `None`. A message
  argument counts as given when it is truthy, that is, a non-empty string.
- **Numbers.** Numbers in rule records are reals; NaN is not modelled.
- **Functions in records.** A function stored in a record (`custom`,
  `customAsync`, `tokenizer`, `comparator`) is an opaque token.
- **Numericality keys.** The 21 property names of a `numericality` record are an
  enumeration (`Rules.NumericalityKey`). `NumericalityKeyName` spells each one.
  The other sub-records use their property names as strings.
- **Union-typed rules.** `equality`, `format` and `type` may be a bare string,
  and `exclusion` and `inclusion` a bare array or object, besides their object
  forms; each form is a constructor of its record. Reading a property of a
  string form gives `undefined`. A `format` pattern is source text or a `RegExp`,
  which is kept by its source and flags. The builder always writes the object
  forms.
- **`custom` defined twice.** `src/FormGroup.ts:27-37` installs a second copy of
  the `custom` validator of `src/constants.ts:22-32`. Both copies have the same
  body, and `Constants.Custom` models both.
- **Re-adding a name.** Adding a control under a name the group already has
  lists that name twice in `considered`, as the code does.

## Model

| member | source | states |
|---|---|---|
| Js.TextWrite | src/ControlRules.ts:26-31 | the optional message write `if (m) obj.k = m` assigns exactly key `k`, and only when the message is truthy |
| Js.FlagWrite | src/ControlRules.ts:23-25 | `if (f !== undefined) obj.k = f` assigns exactly key `k`, and only when the flag is given |
| Rules.Keys | src/FormGroup.ts:290 | `Object.keys` of a rule record: a kind is a key exactly when the record has that entry |
| Rules.OnlyCustomIsSoleKey | src/FormGroup.ts:290 | "custom-only" holds exactly when `custom` is set and the record has one key, i.e. its keys are `{custom}` |
| Rules.StripCustomAsyncKeys | src/FormGroup.ts:208-209 | removing `customAsync` changes no other kind and drops exactly that key |
| Builder.WithDate | src/ControlRules.ts:21-33 | `datetime` is created if missing, and only `dateOnly` (when given) and the truthy messages `notValid`/`message` are assigned on it; no other rule kind changes |
| Builder.WithBeforeDate | src/ControlRules.ts:35-42 | merges `latest := date` and, when truthy, `tooLate` into `datetime`; nothing else changes |
| Builder.WithAfterDate | src/ControlRules.ts:44-51 | merges the bound under the key `earliet`, as written, and, when truthy, `tooEarly`; every other `datetime` property, `earliest` included, keeps its old value |
| Builder.WithLengthConfig | src/ControlRules.ts:98-111 | merges the truthy `message`, `notValid` and the given `tokenizer` into `length`; other length fields and other kinds are kept |
| Builder.WithLength | src/ControlRules.ts:113-121 | merges `is := length` and, when truthy, `wrongLength` into `length`, keeping the other bounds |
| Builder.WithMinLength | src/ControlRules.ts:123-131 | merges `minimum` and, when truthy, `tooShort` into `length`, keeping the other bounds |
| Builder.WithMaxLength | src/ControlRules.ts:133-141 | merges `maximum` and, when truthy, `tooLong` into `length`, keeping the other bounds |
| Builder.WithNumber | src/ControlRules.ts:145-158 | merges `strict` (when given), `notValid` and `message` (when truthy) into `numericality`; every other numericality key is kept |
| Builder.WithInteger | src/ControlRules.ts:160-167 | merges `onlyInteger := true` and, when truthy, `notInteger` |
| Builder.WithDouble | src/ControlRules.ts:169-173 | merges `onlyInteger := false` and nothing else |
| Builder.WithGreaterThan | src/ControlRules.ts:175-183 | merges `greaterThan` and, when truthy, `notGreaterThan` |
| Builder.WithGreaterThanOrEquals | src/ControlRules.ts:185-193 | merges `greaterThanOrEqualTo` and, when truthy, `notGreaterThanOrEqualTo` |
| Builder.WithEquals | src/ControlRules.ts:195-203 | merges `equalTo` and, when truthy, `notEqualTo` |
| Builder.WithLessThanOrEquals | src/ControlRules.ts:205-213 | merges `lessThanOrEqualTo` and, when truthy, `notLessThanOrEqualTo` |
| Builder.WithLessThan | src/ControlRules.ts:215-223 | merges `lessThan` and, when truthy, `notLessThan` |
| Builder.WithDivisibleBy | src/ControlRules.ts:225-233 | merges `divisibleBy` and, when truthy, `notDivisibleBy` |
| Builder.WithOdd | src/ControlRules.ts:235-243 | merges `odd := true` and, when truthy, `notOdd` |
| Builder.WithEven | src/ControlRules.ts:245-253 | merges `even := true` and, when truthy, `notEven` |
| Builder.WithEmail | src/ControlRules.ts:53-56 | `email` is replaced by `true` exactly when no truthy message is given, else by `{message}` |
| Builder.WithSameAs | src/ControlRules.ts:58-67 | `equality` is replaced by the object form `{attribute}` plus the truthy message and the given comparator, never the string shorthand |
| Builder.WithExcludes | src/ControlRules.ts:69-75 | `exclusion` is replaced by the object form `{within}` plus the truthy message, never the bare array or object |
| Builder.WithMatches | src/ControlRules.ts:77-86 | `format` is replaced by the object form `{pattern}`, the pattern being source text or a `RegExp` as given, plus truthy `flags` and `message` |
| Builder.WithIncludes | src/ControlRules.ts:88-94 | `inclusion` is replaced by the object form `{within}` plus the truthy message, never the bare array or object |
| Builder.WithRequired | src/ControlRules.ts:257-263 | `presence` is replaced by `{allowEmpty: a ?? false, message: m \|\| undefined}` |
| Builder.WithType | src/ControlRules.ts:265-271 | `type` is replaced by the object form `{type, message: m \|\| undefined}`, never the string shorthand |
| Builder.WithUrl | src/ControlRules.ts:273-277 | `url` is always an object (never `true`) holding the four arguments as given |
| Builder.WithCustom | src/ControlRules.ts:279-282 | `custom` is the function; the keys grow by `custom` only |
| Builder.WithCustomAsync | src/ControlRules.ts:284-287 | `customAsync` is the function; the keys grow by `customAsync` only |
| Builder.LengthBoundsAccumulate | src/ControlRules.ts:123-141 | `minimum` survives `maxLength` and `maximum` survives `minLength`, and the earlier message stays when the later call gives none |
| Builder.TokenizerSurvivesBounds | src/ControlRules.ts:98-141 | a tokenizer set by `lengthConfig` survives `minLength`, `maxLength` and `length` |
| Builder.LastIntegerFlagWins | src/ControlRules.ts:160-183 | `integer`/`double` decide `onlyInteger` by the last call, and `double` keeps an earlier `greaterThan` |
| Builder.ControlRules.constructor | src/ControlRules.ts:19 | a new builder holds the empty record |
| Builder.ControlRules.Date | src/ControlRules.ts:21-33 | returns the builder itself; its record becomes `WithDate` of the old one |
| Builder.ControlRules.BeforeDate | src/ControlRules.ts:35-42 | returns itself; record becomes `WithBeforeDate` of the old one |
| Builder.ControlRules.AfterDate | src/ControlRules.ts:44-51 | returns itself; record becomes `WithAfterDate` of the old one |
| Builder.ControlRules.Email | src/ControlRules.ts:53-56 | returns itself; record becomes `WithEmail` of the old one |
| Builder.ControlRules.SameAs | src/ControlRules.ts:58-67 | returns itself; record becomes `WithSameAs` of the old one |
| Builder.ControlRules.Excludes | src/ControlRules.ts:69-75 | returns itself; record becomes `WithExcludes` of the old one |
| Builder.ControlRules.Matches | src/ControlRules.ts:77-86 | returns itself; for a text or `RegExp` pattern the record becomes `WithMatches` of the old one |
| Builder.ControlRules.Includes | src/ControlRules.ts:88-94 | returns itself; record becomes `WithIncludes` of the old one |
| Builder.ControlRules.LengthConfig | src/ControlRules.ts:98-111 | returns itself; record becomes `WithLengthConfig` of the old one |
| Builder.ControlRules.Length | src/ControlRules.ts:113-121 | returns itself; record becomes `WithLength` of the old one |
| Builder.ControlRules.MinLength | src/ControlRules.ts:123-131 | returns itself; record becomes `WithMinLength` of the old one |
| Builder.ControlRules.MaxLength | src/ControlRules.ts:133-141 | returns itself; record becomes `WithMaxLength` of the old one |
| Builder.ControlRules.Number | src/ControlRules.ts:145-158 | returns itself; record becomes `WithNumber` of the old one |
| Builder.ControlRules.Integer | src/ControlRules.ts:160-167 | returns itself; record becomes `WithInteger` of the old one |
| Builder.ControlRules.Double | src/ControlRules.ts:169-173 | returns itself; record becomes `WithDouble` of the old one |
| Builder.ControlRules.GreaterThan | src/ControlRules.ts:175-183 | returns itself; record becomes `WithGreaterThan` of the old one |
| Builder.ControlRules.GreaterThanOrEquals | src/ControlRules.ts:185-193 | returns itself; record becomes `WithGreaterThanOrEquals` of the old one |
| Builder.ControlRules.Equals | src/ControlRules.ts:195-203 | returns itself; record becomes `WithEquals` of the old one |
| Builder.ControlRules.LessThanOrEquals | src/ControlRules.ts:205-213 | returns itself; record becomes `WithLessThanOrEquals` of the old one |
| Builder.ControlRules.LessThan | src/ControlRules.ts:215-223 | returns itself; record becomes `WithLessThan` of the old one |
| Builder.ControlRules.DivisibleBy | src/ControlRules.ts:225-233 | returns itself; record becomes `WithDivisibleBy` of the old one |
| Builder.ControlRules.Odd | src/ControlRules.ts:235-243 | returns itself; record becomes `WithOdd` of the old one |
| Builder.ControlRules.Even | src/ControlRules.ts:245-253 | returns itself; record becomes `WithEven` of the old one |
| Builder.ControlRules.Required | src/ControlRules.ts:257-263 | returns itself; record becomes `WithRequired` of the old one |
| Builder.ControlRules.IsType | src/ControlRules.ts:265-271 | returns itself; record becomes `WithType` of the old one |
| Builder.ControlRules.Url | src/ControlRules.ts:273-277 | returns itself; record becomes `WithUrl` of the old one |
| Builder.ControlRules.Custom | src/ControlRules.ts:279-282 | returns itself; record becomes `WithCustom` of the old one |
| Builder.ControlRules.CustomAsync | src/ControlRules.ts:284-287 | returns itself; record becomes `WithCustomAsync` of the old one |
| Builder.ControlRules.RawRules | src/ControlRules.ts:289-292 | returns itself; the record is exactly the given one, in any form the model's records hold: the string shorthands of `equality`, `format` and `type`, the bare arrays or objects of `exclusion` and `inclusion`, and a `date`/`datetime` object with any of its eight keys (`earliest` included) |
| Builder.ControlRules.Serialize | src/ControlRules.ts:294-296 | returns the accumulated record |
| Builder.RawRulesRoundTrip | src/ControlRules.ts:289-296 | `rawRules(r)` then `serialize()` on a fresh builder gives back exactly `r` |
| Builder.RequiredMinLength | src/__tests__/form-group.test.ts:7-10 | `required().minLength(6)` serializes to exactly `presence` (with `allowEmpty: false`) and `length` (with `minimum: 6` only as bound) |
| Builder.AfterDateKeepsEarliest | src/ControlRules.ts:44-51 | after a raw `datetime` record with `earliest`, `afterDate(date)` leaves `earliest` as it was and puts `date` under `earliet` |
| Control.FormControl.constructor | src/FormControl.ts:10-20 | stores rules and value; name `''`, untouched, no errors, not loading |
| Control.FormControl.SetName | src/FormControl.ts:22-25 | returns itself; only `name` changes |
| Control.FormControl.SetTouched | src/FormControl.ts:27-30 | returns itself; only `touched` changes |
| Control.FormControl.SetErrors | src/FormControl.ts:32-35 | returns itself; only `errors` changes, and `hasError()` then holds iff they are non-empty |
| Control.FormControl.SetLoading | src/FormControl.ts:37-40 | returns itself; only `loading` changes, and `isLoading()` then returns it |
| Control.FormControl.HasError | src/FormControl.ts:42-44 | holds exactly in the two display states with errors |
| Control.FormControl.IsLoading | src/FormControl.ts:46-48 | is the control's loading flag |
| Control.FormControl.TouchedAndHasError | src/FormControl.ts:50-52 | holds exactly in the touched-with-error state |
| Control.FormControl.UntouchedAndHasError | src/FormControl.ts:54-56 | holds exactly in the untouched-with-error state |
| Control.FormControl.TouchedAndNoError | src/FormControl.ts:58-60 | holds exactly in the touched-without-error state |
| Control.FormControl.UntouchedAndNoError | src/FormControl.ts:62-64 | holds exactly in the untouched-without-error state |
| Control.FormControl.SetValue | src/FormControl.ts:66-73 | returns itself; only the value changes and `getValue()` (`Control.FormControl.GetValue`) then returns it unchanged |
| Control.FormControl.SetRules | src/FormControl.ts:75-82 | returns itself; the fields are unchanged and `getRules()` (`Control.FormControl.GetRules`) then returns the new rules |
| Control.ExactlyOneQuadrant | src/FormControl.ts:50-64 | exactly one of the four touched/error predicates holds |
| Constants.Mapped | src/constants.ts:12-20 | the loop's result has exactly the attributes of the records as keys, and holds under each attribute and validator the message of the LAST such record, none if there is none |
| Constants.MappedSingle | src/constants.ts:12-20 | one record becomes the one-entry object `{attribute: {validator: error}}` |
| Constants.Custom | src/constants.ts:22-32 | non-null exactly when `options` is truthy and, when an object, has a truthy `message`; the result is then that message, or `options` itself when it is not an object |
| GroupSpec.EditEach | src/FormGroup.ts:152-157 | the setter chain of a loop over names: each listed control is edited once (repetition is harmless), the others are kept |
| GroupSpec.Render | src/FormGroup.ts:255-259 | `callRender`: one more render, with the current validity, exactly when a callback is installed; nothing else changes |
| GroupSpec.UpdateValidState | src/FormGroup.ts:261-270 | `_valid` becomes true iff no considered control has errors or is loading; a render happens only on the valid branch |
| GroupSpec.Touch | src/FormGroup.ts:134-137 | an unknown name fails (`TypeError`); otherwise only that control becomes touched, validity is kept, and the form renders once with the current validity when a callback is installed |
| GroupSpec.ToggleTouched | src/FormGroup.ts:327-332 | every considered control gets the flag and nothing else about it changes; the others are kept; validity is kept; one render with the current validity when a callback is installed |
| GroupSpec.Reset | src/FormGroup.ts:151-161 | every considered control is untouched, error-free and not loading, with its value and name kept; `_valid` is false; one render with `false` when a callback is installed |
| GroupSpec.UpdateControlValue | src/FormGroup.ts:334-337 | the value is stored both in `_values` and in the control; nothing else changes |
| GroupSpec.AssignValues | src/FormGroup.ts:164-168 | after the loop, a listed key given in the incoming values holds that value; every other key keeps its value |
| GroupSpec.SyncRevalidate | src/FormGroup.ts:316-325 | each listed control holds exactly the messages the evaluator reports for it (none for `undefined`); the others are kept; validity is recomputed; one `true` render exactly when it comes out valid and a callback is installed |
| GroupSpec.AssignConsidered | src/FormGroup.ts:164-168 | a considered control given an incoming value takes it; every other control is unchanged |
| GroupSpec.UpdateValues | src/FormGroup.ts:163-170 | every considered control takes the given value (else keeps its own), keeps `touched`, `loading` and name, and holds the evaluator's messages for it over all values and rules, or none; other controls are kept; validity is recomputed over the considered controls; one `true` render exactly when valid with a callback |
| GroupSpec.UpdateValuesKeepsWellFormed | src/FormGroup.ts:163-170 | the value map holds exactly the given values for the given keys and the old value elsewhere; the group stays well formed and honest |
| GroupSpec.RemoveOne | src/FormGroup.ts:99-111 | a name that is not considered changes nothing; otherwise it leaves every map and list, every other control, rule, value and key-list membership is kept, validity is recomputed over the remaining controls, and one `true` render happens exactly when it comes out valid with a callback |
| GroupSpec.RemoveAll | src/FormGroup.ts:98-112 | no listed name is considered afterwards; a listed considered name is gone from controls, rules and values; all other names are kept unchanged |
| GroupSpec.RemoveAllLists | src/FormGroup.ts:98-112 | the custom and asynchronous key lists lose exactly the considered listed names; if no listed name is considered the group is unchanged |
| GroupSpec.RemoveAllRevalidates | src/FormGroup.ts:98-112 | once a considered name was removed, validity is recomputed over the controls that are left |
| GroupSpec.RemoveAllRenders | src/FormGroup.ts:98-112 | the callback is kept, the render log only grows, and every render added reports a valid form |
| GroupSpec.RemoveAllKeepsWellFormed | src/FormGroup.ts:98-112 | in a well-formed group, no listed name is left in any map or list, and the group stays well formed |
| GroupSpec.AddControls | src/FormGroup.ts:272-314 | names are appended to `considered`; each new control is recorded with its value and rules; only the new controls are checked, against the new values and rules; old controls are kept; validity is recomputed; one `true` render exactly when valid with a callback |
| GroupSpec.AddEachAdded | src/FormGroup.ts:281-309 | the loop's closed form: a name joins `customRuleKeys` iff `custom` is its only rule, and `customAsyncRuleKeys` iff it has `customAsync` |
| GroupSpec.AddControlsKeepsWellFormed | src/FormGroup.ts:272-314 | adding controls keeps a group well formed and honest |
| GroupSpec.ResolveName | src/FormGroup.ts:174-187 | the name is `data-validate-control`, else `validate-control`, else the element's `name`, each only when non-empty |
| GroupSpec.EventValue | src/FormGroup.ts:194-196 | an unchecked checkbox carries `null`, everything else its `value` |
| GroupSpec.StripAsync | src/FormGroup.ts:200-210 | the rules to check: the same keys, only `customAsync` may differ, and it survives exactly for the edited name and non-listed names; in a well-formed group only the edited control keeps one |
| GroupSpec.Answer | src/FormGroup.ts:223-240 | `then`/`catch`: resolved or rejected touches the edited control and shows its own found messages; thrown changes nothing; no other control changes |
| GroupSpec.SettleFields | src/FormGroup.ts:221-248 | the edited control stays loading exactly when the check was cancelled; controls neither edited nor custom-only are unchanged; values are kept |
| GroupSpec.SettledEdited | src/FormGroup.ts:223-247 | resolved or rejected leaves the edited control touched with its found messages; a thrown check only lowers its loading flag |
| GroupSpec.SettledCustom | src/FormGroup.ts:242-245 | every custom-only control is touched and shows the messages found for it, none unless the check was rejected |
| GroupSpec.Settle | src/FormGroup.ts:241-251 | the bookkeeping is unchanged; validity is recomputed over the settled controls, and a cancelled check leaves the form invalid; with a callback the form renders `true` twice (`updateValidState` and `callRender`) when valid, else `false` once |
| GroupSpec.PrepareFields | src/FormGroup.ts:198-218 | only the edited control changes: it takes the value and is loading when it has an asynchronous rule |
| GroupSpec.Prepare | src/FormGroup.ts:198-218 | the value map gets the event's value; the rules and key lists are unchanged; without an asynchronous rule validity and renders are kept; with one, validity is recomputed, the form is invalid while the edited control loads, and it renders as after `updateValidState` and `callRender` |
| GroupSpec.Validate | src/FormGroup.ts:172-253 | an event about no considered control changes nothing; otherwise values take the event's value, the edited control loads iff cancelled, a cancelled check leaves the form invalid, other non-custom controls are unchanged |
| GroupSpec.ValidateMessages | src/FormGroup.ts:221-251 | after `validate`, a resolved or rejected check leaves the edited control touched with its own messages, and every custom-only control touched with its messages |
| GroupSpec.TouchKeepsWellFormed | src/FormGroup.ts:134-137 | `touch` keeps a group well formed and honest |
| GroupSpec.ToggleTouchedKeepsWellFormed | src/FormGroup.ts:327-332 | `touchAll`/`unTouchAll` keep a group well formed and honest |
| GroupSpec.ResetKeepsWellFormed | src/FormGroup.ts:151-161 | `reset` keeps a group well formed and honest |
| GroupSpec.RemoveOneKeepsWellFormed | src/FormGroup.ts:99-111 | one removal keeps a group well formed and honest |
| GroupSpec.SyncRevalidateKeepsWellFormed | src/FormGroup.ts:316-325 | revalidation keeps a group well formed and makes it honest |
| GroupSpec.PrepareKeepsWellFormed | src/FormGroup.ts:198-218 | storing the event's value keeps a group well formed and honest |
| GroupSpec.SettleKeepsWellFormed | src/FormGroup.ts:241-251 | settling keeps a group well formed and makes it honest |
| GroupSpec.ValidateKeepsWellFormed | src/FormGroup.ts:172-253 | `validate` keeps a group well formed and honest |
| GroupSpec.LastToggleWins | src/FormGroup.ts:139-145 | `touchAll`/`unTouchAll` twice leaves the controls as the second alone does (so each is idempotent) |
| GroupSpec.TouchedTwice | src/FormGroup.ts:327-332 | setting `touched` on the same controls twice leaves the second value |
| GroupSpec.RemoveUndoesAdd | src/FormGroup.ts:98-112 | removing controls just added under fresh names gives back the controls, rules and values |
| GroupSpec.RemoveUndoesAddConsidered | src/FormGroup.ts:98-112 | ... and the considered names, up to repetition |
| Group.FormGroup.UpdateValidState | src/FormGroup.ts:261-270 | the loop stops at the first blocking control; the result is the `UpdateValidState` transition |
| Group.FormGroup.CallRender | src/FormGroup.ts:255-259 | one render with the current validity exactly when a callback is installed |
| Group.FormGroup.EditEachControl | src/FormGroup.ts:152-157 | the loop of setter chains over the listed controls performs `EditEach` |
| Group.RunEdit | src/FormGroup.ts:152-156 | one setter chain on one control (this one, and those of src/FormGroup.ts:135, 166, 214, 224-245, 322 and 329) changes its fields exactly as `Apply` says and keeps its rules |
| Group.FormGroup.EditControl | src/FormGroup.ts:135 | `this.controls[key].<setter chain>`: the views of the group's controls become `EditAt` of the old ones, so every other control is unchanged |
| Group.FormGroup.SyncRevalidate | src/FormGroup.ts:316-325 | performs the `SyncRevalidate` transition |
| Group.FormGroup.UpdateControlValue | src/FormGroup.ts:334-337 | performs the `UpdateControlValue` transition |
| Group.FormGroup.Get | src/FormGroup.ts:114-116 | the control of that name, or `None`; in a valid group, a control exists exactly for the considered names, so `None` after its removal |
| Group.FormGroup.GetControls | src/FormGroup.ts:118-120 | the controls, whose fields are the group's; in a valid group exactly the considered names |
| Group.FormGroup.GetValues | src/FormGroup.ts:122-124 | in a valid group, each control's current value under its name |
| Group.FormGroup.IsValid | src/FormGroup.ts:126-128 | in a valid group, true only when no considered control has errors or is loading |
| Group.FormGroup.IsInvalid | src/FormGroup.ts:130-132 | the negation of `valid()` |
| Group.FormGroup.Touch | src/FormGroup.ts:134-137 | fails exactly for an unknown name, leaving the group unchanged; otherwise performs `Touch`; keeps the invariant |
| Group.FormGroup.TouchControl | src/FormGroup.ts:135-136 | for a known name, `setTouched(true)` then `callRender()` perform the `Touch` transition |
| Group.FormGroup.TouchAll | src/FormGroup.ts:139-141 | performs `ToggleTouched(true)`; keeps the invariant |
| Group.FormGroup.UnTouchAll | src/FormGroup.ts:143-145 | performs `ToggleTouched(false)`; keeps the invariant |
| Group.FormGroup.ToggleTouched | src/FormGroup.ts:327-332 | performs `ToggleTouched`; keeps the invariant |
| Group.FormGroup.TouchEach | src/FormGroup.ts:328-331 | the loop over `considered` and the render perform `ToggleTouched` |
| Group.FormGroup.Render | src/FormGroup.ts:147-149 | installs the callback and changes nothing else |
| Group.FormGroup.Reset | src/FormGroup.ts:151-161 | performs `Reset`; keeps the invariant |
| Group.FormGroup.ClearConsidered | src/FormGroup.ts:152-158 | the loop of `reset` clears every considered control and lowers `_valid` |
| Group.FormGroup.UpdateValues | src/FormGroup.ts:163-170 | performs `UpdateValues`; keeps the invariant |
| Group.FormGroup.AssignAndRevalidate | src/FormGroup.ts:164-169 | the assignment loop and the revalidation of every considered control over all values and rules perform `UpdateValues` |
| Group.FormGroup.AssignConsideredValues | src/FormGroup.ts:164-168 | the loop stores each given value in `_values` and in the control, as `AssignValues` and `EditEach` say |
| Group.FormGroup.AssignValue | src/FormGroup.ts:165-167 | one iteration: a given value is stored in `_values` and in the control, an absent one changes nothing |
| Group.FormGroup.Validate | src/FormGroup.ts:172-253 | performs `Validate`; keeps the invariant |
| Group.FormGroup.ValidateControl | src/FormGroup.ts:192-251 | the handler for a considered name is `Prepare`, then the evaluator over the stored values and stripped rules, then `Settle` |
| Group.FormGroup.PrepareControl | src/FormGroup.ts:198-218 | performs `Prepare` and returns exactly `StripAsync` of the rules |
| Group.FormGroup.ValidationRules | src/FormGroup.ts:200-210 | the loop over `customAsyncRuleKeys` builds exactly `StripAsync` of the rules |
| Group.FormGroup.MarkLoading | src/FormGroup.ts:213-218 | the edited control is loading, then validity is recomputed and the form renders |
| Group.FormGroup.SettleControl | src/FormGroup.ts:223-251 | performs `Settle` for the outcome |
| Group.FormGroup.SettleViews | src/FormGroup.ts:223-247 | the handlers and the `finally` loop edit the controls exactly as `SettleFields` says |
| Group.FormGroup.AnswerControl | src/FormGroup.ts:223-240 | the `then`/`catch` handler performs `Answer` |
| Group.FormGroup.RemoveControl | src/FormGroup.ts:99-111 | one iteration performs `RemoveOne`; keeps the invariant |
| Group.FormGroup.ForgetAndRevalidate | src/FormGroup.ts:104-110 | for a considered name, the deletions, the filters and `updateValidState` perform `RemoveOne`; the control map loses exactly that name |
| Group.FormGroup.ForgetControl | src/FormGroup.ts:104-109 | the three deletions and three filters perform `Forget`; the control map loses exactly that name |
| Group.FormGroup.RemoveControls | src/FormGroup.ts:98-112 | performs `RemoveAll`; keeps the invariant |
| Group.FormGroup.constructor | src/FormGroup.ts:87-92 | the group is the empty group after `AddControls` of the given controls; the invariant holds |
| Group.FormGroup.AddControls | src/FormGroup.ts:94-96 | performs `AddControls`; keeps the invariant |
| Group.FormGroup.AddMultipleControls | src/FormGroup.ts:272-314 | performs `AddControls` on the controls' fields and serialized rules; keeps the invariant |
| Group.FormGroup.RecordControls | src/FormGroup.ts:274-311 | appends the names to `considered`, then records every new control, its value and rules and lists; the controls are the old ones plus the new ones; no control is shared |
| Group.FormGroup.Consider | src/FormGroup.ts:275 | the names are appended to `considered` and nothing else changes |
| Group.FormGroup.RecordAll | src/FormGroup.ts:281-311 | the loop, seen through the group's state, performs `AddEach` and returns the new controls' values and rules |
| Group.FormGroup.RecordEach | src/FormGroup.ts:281-311 | the loop's bookkeeping equals its closed form `Tallied` |
| Group.FormGroup.RecordControl | src/FormGroup.ts:282-308 | one iteration's bookkeeping is `TallyOne` |

## Left out

- The `options` object, `instanceCount`, and `syncValidateOnly`: the evaluator is
  a parameter, so the options it reads are not modelled (src/FormGroup.ts:87-88,
  317-319).
- The `customAsync` validator, its task registry, `setTimeout` and the promise
  chain's timing: `validate` runs to completion with an outcome given as a
  parameter, so interleaved checks of several events are not modelled.
- Group.FormGroup.Validate: the event is handled at once rather than on a later
  tick, and the rethrown `Error` of a thrown check is not modelled beyond the
  `finally` step that still runs.
- The render callback's arguments and any code it runs: a render is a record
  of the validity passed, so a callback that re-enters the group is not
  modelled.
- Group.FormGroup.Touch: the unused `callback` parameter is dropped.
- Group.FormGroup: controls changed by the caller directly are not modelled.
  `FormControl`'s setters are public, and `get()` and `getControls()` return the
  live controls. A direct `setValue` leaves `_values` stale: `values()`,
  `updateValues({})` and the `validate` of another field then see the old
  value. A direct `setErrors` or `setLoading` can leave `valid()` true while a
  considered control blocks. The class invariant `Valid()` rules out both
  states: it demands that the value map mirrors the controls and that
  validity is honest, and every method requires it. Likewise `values()`
  returns the live `_values` map in the code. Adding and removing controls
  change that map in place, while `updateControlValue` replaces it, so a map
  handed out earlier sees additions and deletions but not value updates. The
  model (`GetValues`) returns a copy.
- Group.FormGroup.AddControls and the constructor require the added controls
  to be distinct objects not already in the group. The code allows sharing a
  control between names; the model does not cover that aliasing.
- Object prototype keys (`toString`, `__proto__`) as control names, and
  `hasOwnProperty` versus truthiness: a rule is present or absent, so
  `this.rules[name].hasOwnProperty('customAsync')` and the truthiness test
  coincide.
- `undefined` versus `null`: both are `None`. An incoming value that is
  explicitly `undefined` in `updateValues` counts as absent, which is what the
  `!== undefined` test does.
- Builder.ControlRules.RawRules: a raw `date` or `datetime` rule (typed `any`
  in the source) can only be an object with the eight keys the model names
  (`dateOnly`, `notValid`, `message`, `latest`, `tooLate`, `earliest`,
  `earliet`, `tooEarly`). A bare `true` or other keys cannot be passed.
  Numbers in raw records cannot be NaN or infinite.
- Builder.RawRulesRoundTrip: the round trip is proved over the records the
  model holds, so it does not cover the raw `date`/`datetime` forms and
  numbers named in the line above.
- `serialize` returns the builder's record by reference in the code, so a later
  builder step also changes a record already handed out; the model copies it.
- The `value` field of validate.js's detailed error records: `mapped` does not
  read it.
- The `datetime` parse and format extensions (src/constants.ts:63-89), which
  rely on JavaScript dates, time zones and NaN.
- The `equality` message override (src/FormGroup.ts:74, repeated at src/constants.ts:61) only changes
  validate.js's default text.
- `src/index.ts` is not part of this model: it registers globals and
  factory wrappers.

=== FILE: Builder.dfy ===
/** The fluent rule builder `ControlRules` (src/ControlRules.ts).

    Each builder step is specified by a function on the rule record. Its
    contract says, in JavaScript's terms, which property assignments the step
    performs and that no other rule kind changes. The `length`,
    `numericality` and `datetime` steps MERGE: they assign into the existing
    sub-record (`this.rules.length = this.rules.length || {}` and then field
    writes). Every other step REPLACES its sub-record by a fresh object
    literal. The class methods perform the same steps statement by statement
    and are proved against those functions. */
module Builder {
  import opened Wrappers
  import opened Js
  import opened Rules

  // ---------------------------------------------------------------------------
  // `this.rules.x || {}`

  function DatetimeOf(r: RuleItem): DatetimeRule { r.datetime.GetOr(EmptyDatetime) }
  function LengthOf(r: RuleItem): LengthRule { r.length.GetOr(EmptyLength) }
  function NumericalityOf(r: RuleItem): NumericalityRule { r.numericality.GetOr(EmptyNumericality) }

  // ---------------------------------------------------------------------------
  // datetime (merged)

  /** `date(dateOnly?, invalidDate?, overrideMessage?)`, src/ControlRules.ts:21-33. */
  function WithDate(r: RuleItem, dateOnly: Option<bool>, invalidDate: Option<string>, overrideMessage: Option<string>): (r': RuleItem)
    ensures AgreeExcept(r, r', DatetimeKind)
    ensures r'.datetime.Some?
    ensures DatetimeAssigned(DatetimeOf(r), r'.datetime.value,
              FlagWrite("dateOnly", dateOnly) + TextWrite("notValid", invalidDate) + TextWrite("message", overrideMessage))
  {
    var d := DatetimeOf(r);
    r.(datetime := Some(d.(dateOnly := if dateOnly.Some? then dateOnly else d.dateOnly,
                           notValid := IfTruthy(invalidDate, d.notValid),
                           message := IfTruthy(overrideMessage, d.message))))
  }

  /** `beforeDate(date, message?)`, src/ControlRules.ts:35-42: the bound goes under `latest`. */
  function WithBeforeDate(r: RuleItem, date: JsValue, message: Option<string>): (r': RuleItem)
    ensures AgreeExcept(r, r', DatetimeKind)
    ensures r'.datetime.Some?
    ensures DatetimeAssigned(DatetimeOf(r), r'.datetime.value, map["latest" := date] + TextWrite("tooLate", message))
  {
    var d := DatetimeOf(r);
    r.(datetime := Some(d.(latest := Some(date), tooLate := IfTruthy(message, d.tooLate))))
  }

  /** `afterDate(date, message?)`, src/ControlRules.ts:44-51: the bound goes under the
      misspelt key `earliet`, so `earliest` keeps whatever it held before (nothing,
      unless a raw record set it). */
  function WithAfterDate(r: RuleItem, date: JsValue, message: Option<string>): (r': RuleItem)
    ensures AgreeExcept(r, r', DatetimeKind)
    ensures r'.datetime.Some?
    ensures DatetimeAssigned(DatetimeOf(r), r'.datetime.value, map["earliet" := date] + TextWrite("tooEarly", message))
    ensures r'.datetime.value.earliest == DatetimeOf(r).earliest
  {
    var d := DatetimeOf(r);
    r.(datetime := Some(d.(earliet := Some(date), tooEarly := IfTruthy(message, d.tooEarly))))
  }

  // ---------------------------------------------------------------------------
  // length (merged)

  /** `lengthConfig(tokenizer?, notValid?, overrideMessage?)`, src/ControlRules.ts:98-111. */
  function WithLengthConfig(r: RuleItem, tokenizer: Option<FunctionToken>, notValid: Option<string>, overrideMessage: Option<string>): (r': RuleItem)
    ensures AgreeExcept(r, r', LengthKind)
    ensures r'.length.Some?
    ensures LengthAssigned(LengthOf(r), r'.length.value,
              TextWrite("message", overrideMessage) + TextWrite("notValid", notValid) +
              (if tokenizer.Some? then map["tokenizer" := Function(tokenizer.value)] else map[]))
  {
    var l := LengthOf(r);
    r.(length := Some(l.(message := IfTruthy(overrideMessage, l.message),
                         notValid := IfTruthy(notValid, l.notValid),
                         tokenizer := if tokenizer.Some? then tokenizer else l.tokenizer)))
  }

  /** `length(length, message?)`, src/ControlRules.ts:113-121: the exact length goes under `is`. */
  function WithLength(r: RuleItem, length: JsNumber, message: Option<string>): (r': RuleItem)
    ensures AgreeExcept(r, r', LengthKind)
    ensures r'.length.Some?
    ensures LengthAssigned(LengthOf(r), r'.length.value, map["is" := Number(length)] + TextWrite("wrongLength", message))
  {
    var l := LengthOf(r);
    r.(length := Some(l.(exact := Some(length), wrongLength := IfTruthy(message, l.wrongLength))))
  }

  /** `minLength(length, message?)`, src/ControlRules.ts:123-131. */
  function WithMinLength(r: RuleItem, length: JsNumber, message: Option<string>): (r': RuleItem)
    ensures AgreeExcept(r, r', LengthKind)
    ensures r'.length.Some?
    ensures LengthAssigned(LengthOf(r), r'.length.value, map["minimum" := Number(length)] + TextWrite("tooShort", message))
  {
    var l := LengthOf(r);
    r.(length := Some(l.(minimum := Some(length), tooShort := IfTruthy(message, l.tooShort))))
  }

  /** `maxLength(length, message?)`, src/ControlRules.ts:133-141. */
  function WithMaxLength(r: RuleItem, length: JsNumber, message: Option<string>): (r': RuleItem)
    ensures AgreeExcept(r, r', LengthKind)
    ensures r'.length.Some?
    ensures LengthAssigned(LengthOf(r), r'.length.value, map["maximum" := Number(length)] + TextWrite("tooLong", message))
  {
    var l := LengthOf(r);
    r.(length := Some(l.(maximum := Some(length), tooLong := IfTruthy(message, l.tooLong))))
  }

  // ---------------------------------------------------------------------------
  // numericality (merged)

  /** `number(notValid?, useStrict?, overrideMessage?)`, src/ControlRules.ts:145-158. */
  function WithNumber(r: RuleItem, notValid: Option<string>, useStrict: Option<bool>, overrideMessage: Option<string>): (r': RuleItem)
    ensures AgreeExcept(r, r', NumericalityKind)
    ensures r'.numericality.Some?
    ensures NumericalityAssigned(NumericalityOf(r), r'.numericality.value,
              FlagWrite(StrictKey, useStrict) + TextWrite(NotValidKey, notValid) + TextWrite(MessageKey, overrideMessage))
  {
    var n := NumericalityOf(r);
    var n' := n.(strict := if useStrict.Some? then useStrict else n.strict,
                 notValid := IfTruthy(notValid, n.notValid),
                 message := IfTruthy(overrideMessage, n.message));
    var writes := FlagWrite(StrictKey, useStrict) + TextWrite(NotValidKey, notValid) + TextWrite(MessageKey, overrideMessage);
    assert NumericalityAssigned(n, n', writes) by {
      forall k
        ensures NumericalityProp(n', k) == if k in writes then writes[k] else NumericalityProp(n, k)
      {
        if k !in {StrictKey, NotValidKey, MessageKey} {
          assert k !in writes;
        }
      }
    }
    r.(numericality := Some(n'))
  }

  /** `integer(message?)`, src/ControlRules.ts:160-167. */
  function WithInteger(r: RuleItem, message: Option<string>): (r': RuleItem)
    ensures AgreeExcept(r, r', NumericalityKind)
    ensures r'.numericality.Some?
    ensures NumericalityAssigned(NumericalityOf(r), r'.numericality.value, map[OnlyIntegerKey := Bool(true)] + TextWrite(NotIntegerKey, message))
  {
    var n := NumericalityOf(r);
    r.(numericality := Some(n.(onlyInteger := Some(true), notInteger := IfTruthy(message, n.notInteger))))
  }

  /** `double()`, src/ControlRules.ts:169-173. */
  function WithDouble(r: RuleItem): (r': RuleItem)
    ensures AgreeExcept(r, r', NumericalityKind)
    ensures r'.numericality.Some?
    ensures NumericalityAssigned(NumericalityOf(r), r'.numericality.value, map[OnlyIntegerKey := Bool(false)])
  {
    r.(numericality := Some(NumericalityOf(r).(onlyInteger := Some(false))))
  }

  /** `greaterThan(value, message?)`, src/ControlRules.ts:175-183. */
  function WithGreaterThan(r: RuleItem, value: JsNumber, message: Option<string>): (r': RuleItem)
    ensures AgreeExcept(r, r', NumericalityKind)
    ensures r'.numericality.Some?
    ensures NumericalityAssigned(NumericalityOf(r), r'.numericality.value,
              map[GreaterThanKey := Number(value)] + TextWrite(NotGreaterThanKey, message))
  {
    var n := NumericalityOf(r);
    r.(numericality := Some(n.(greaterThan := Some(value), notGreaterThan := IfTruthy(message, n.notGreaterThan))))
  }

  /** `greaterThanOrEquals(value, message?)`, src/ControlRules.ts:185-193. */
  function WithGreaterThanOrEquals(r: RuleItem, value: JsNumber, message: Option<string>): (r': RuleItem)
    ensures AgreeExcept(r, r', NumericalityKind)
    ensures r'.numericality.Some?
    ensures NumericalityAssigned(NumericalityOf(r), r'.numericality.value,
              map[GreaterThanOrEqualToKey := Number(value)] + TextWrite(NotGreaterThanOrEqualToKey, message))
  {
    var n := NumericalityOf(r);
    r.(numericality := Some(n.(greaterThanOrEqualTo := Some(value),
                               notGreaterThanOrEqualTo := IfTruthy(message, n.notGreaterThanOrEqualTo))))
  }

  /** `equals(value, message?)`, src/ControlRules.ts:195-203. */
  function WithEquals(r: RuleItem, value: JsNumber, message: Option<string>): (r': RuleItem)
    ensures AgreeExcept(r, r', NumericalityKind)
    ensures r'.numericality.Some?
    ensures NumericalityAssigned(NumericalityOf(r), r'.numericality.value,
              map[EqualToKey := Number(value)] + TextWrite(NotEqualToKey, message))
  {
    var n := NumericalityOf(r);
    r.(numericality := Some(n.(equalTo := Some(value), notEqualTo := IfTruthy(message, n.notEqualTo))))
  }

  /** `lessThanOrEquals(value, message?)`, src/ControlRules.ts:205-213. */
  function WithLessThanOrEquals(r: RuleItem, value: JsNumber, message: Option<string>): (r': RuleItem)
    ensures AgreeExcept(r, r', NumericalityKind)
    ensures r'.numericality.Some?
    ensures NumericalityAssigned(NumericalityOf(r), r'.numericality.value,
              map[LessThanOrEqualToKey := Number(value)] + TextWrite(NotLessThanOrEqualToKey, message))
  {
    var n := NumericalityOf(r);
    r.(numericality := Some(n.(lessThanOrEqualTo := Some(value),
                               notLessThanOrEqualTo := IfTruthy(message, n.notLessThanOrEqualTo))))
  }

  /** `lessThan(value, message?)`, src/ControlRules.ts:215-223. */
  function WithLessThan(r: RuleItem, value: JsNumber, message: Option<string>): (r': RuleItem)
    ensures AgreeExcept(r, r', NumericalityKind)
    ensures r'.numericality.Some?
    ensures NumericalityAssigned(NumericalityOf(r), r'.numericality.value,
              map[LessThanKey := Number(value)] + TextWrite(NotLessThanKey, message))
  {
    var n := NumericalityOf(r);
    r.(numericality := Some(n.(lessThan := Some(value), notLessThan := IfTruthy(message, n.notLessThan))))
  }

  /** `divisibleBy(value, message?)`, src/ControlRules.ts:225-233. */
  function WithDivisibleBy(r: RuleItem, value: JsNumber, message: Option<string>): (r': RuleItem)
    ensures AgreeExcept(r, r', NumericalityKind)
    ensures r'.numericality.Some?
    ensures NumericalityAssigned(NumericalityOf(r), r'.numericality.value,
              map[DivisibleByKey := Number(value)] + TextWrite(NotDivisibleByKey, message))
  {
    var n := NumericalityOf(r);
    r.(numericality := Some(n.(divisibleBy := Some(value), notDivisibleBy := IfTruthy(message, n.notDivisibleBy))))
  }

  /** `odd(message?)`, src/ControlRules.ts:235-243. */
  function WithOdd(r: RuleItem, message: Option<string>): (r': RuleItem)
    ensures AgreeExcept(r, r', NumericalityKind)
    ensures r'.numericality.Some?
    ensures NumericalityAssigned(NumericalityOf(r), r'.numericality.value, map[OddKey := Bool(true)] + TextWrite(NotOddKey, message))
  {
    var n := NumericalityOf(r);
    r.(numericality := Some(n.(odd := Some(true), notOdd := IfTruthy(message, n.notOdd))))
  }

  /** `even(message?)`, src/ControlRules.ts:245-253. */
  function WithEven(r: RuleItem, message: Option<string>): (r': RuleItem)
    ensures AgreeExcept(r, r', NumericalityKind)
    ensures r'.numericality.Some?
    ensures NumericalityAssigned(NumericalityOf(r), r'.numericality.value, map[EvenKey := Bool(true)] + TextWrite(NotEvenKey, message))
  {
    var n := NumericalityOf(r);
    r.(numericality := Some(n.(even := Some(true), notEven := IfTruthy(message, n.notEven))))
  }

  // ---------------------------------------------------------------------------
  // Replaced sub-records

  /** `email(message?)`, src/ControlRules.ts:53-56: `{message}` when the message is
      truthy, the flag `true` otherwise. */
  function WithEmail(r: RuleItem, message: Option<string>): (r': RuleItem)
    ensures AgreeExcept(r, r', EmailKind)
    ensures r'.email.Some?
    ensures r'.email.value == EmailFlag(true) <==> !TruthyText(message)
    ensures TruthyText(message) ==> r'.email.value == EmailMessage(message.value)
  {
    r.(email := Some(if TruthyText(message) then EmailMessage(message.value) else EmailFlag(true)))
  }

  /** `sameAs(controlName, message?, comparator?)`, src/ControlRules.ts:58-67. */
  function WithSameAs(r: RuleItem, controlName: string, message: Option<string>, comparator: Option<FunctionToken>): (r': RuleItem)
    ensures AgreeExcept(r, r', EqualityKind)
    ensures r'.equality.Some?
    ensures EqualityIs(r'.equality.value,
              map["attribute" := Str(controlName)] + TextWrite("message", message) +
              (if comparator.Some? then map["comparator" := Function(comparator.value)] else map[]))
  {
    r.(equality := Some(EqualityOptions(controlName, if TruthyText(message) then message else None, comparator)))
  }

  /** `excludes(exclusions, message?)`, src/ControlRules.ts:69-75. */
  function WithExcludes(r: RuleItem, exclusions: JsValue, message: Option<string>): (r': RuleItem)
    ensures AgreeExcept(r, r', ExclusionKind)
    ensures r'.exclusion.Some?
    ensures WithinIs(r'.exclusion.value, map["within" := exclusions] + TextWrite("message", message))
  {
    r.(exclusion := Some(WithinOptions(exclusions, if TruthyText(message) then message else None)))
  }

  /** `matches(pattern, flags?, message?)`, src/ControlRules.ts:77-86. */
  function WithMatches(r: RuleItem, pattern: Pattern, flags: Option<string>, message: Option<string>): (r': RuleItem)
    ensures AgreeExcept(r, r', FormatKind)
    ensures r'.format.Some?
    ensures FormatIs(r'.format.value, map["pattern" := PatternValue(pattern)] + TextWrite("flags", flags) + TextWrite("message", message))
  {
    r.(format := Some(FormatOptions(pattern, if TruthyText(flags) then flags else None,
                                 if TruthyText(message) then message else None)))
  }

  /** `includes(inclusions, message?)`, src/ControlRules.ts:88-94. */
  function WithIncludes(r: RuleItem, inclusions: JsValue, message: Option<string>): (r': RuleItem)
    ensures AgreeExcept(r, r', InclusionKind)
    ensures r'.inclusion.Some?
    ensures WithinIs(r'.inclusion.value, map["within" := inclusions] + TextWrite("message", message))
  {
    r.(inclusion := Some(WithinOptions(inclusions, if TruthyText(message) then message else None)))
  }

  /** `required(message?, allowEmpty?)`, src/ControlRules.ts:257-263: `allowEmpty`
      defaults to false and a falsy message is stored as `undefined`. */
  function WithRequired(r: RuleItem, message: Option<string>, allowEmpty: Option<bool>): (r': RuleItem)
    ensures AgreeExcept(r, r', PresenceKind)
    ensures r'.presence.Some?
    ensures PresenceIs(r'.presence.value,
              map["allowEmpty" := Bool(allowEmpty.GetOr(false)),
                  "message" := if TruthyText(message) then Str(message.value) else Undefined])
  {
    r.(presence := Some(PresenceRule(Some(allowEmpty.GetOr(false)), if TruthyText(message) then message else None)))
  }

  /** `isType(type, message?)`, src/ControlRules.ts:265-271. */
  function WithType(r: RuleItem, typeName: string, message: Option<string>): (r': RuleItem)
    ensures AgreeExcept(r, r', TypeKind)
    ensures r'.typeRule.Some?
    ensures TypeIs(r'.typeRule.value,
              map["type" := Str(typeName), "message" := if TruthyText(message) then Str(message.value) else Undefined])
  {
    r.(typeRule := Some(TypeOptions(typeName, if TruthyText(message) then message else None)))
  }

  /** `url(message?, schemes?, allowLocal?, allowDataUrl?)`, src/ControlRules.ts:273-277:
      the options object is always truthy, so `url` is never the bare flag and every
      argument is stored as given (a falsy message included). */
  function WithUrl(r: RuleItem, message: Option<string>, schemes: Option<seq<string>>, allowLocal: Option<bool>, allowDataUrl: Option<bool>): (r': RuleItem)
    ensures AgreeExcept(r, r', UrlKind)
    ensures r'.url.Some? && !r'.url.value.UrlFlag?
    ensures UrlIs(r'.url.value,
              map["message" := OfText(message), "schemes" := OfStrings(schemes),
                  "allowLocal" := OfFlag(allowLocal), "allowDataUrl" := OfFlag(allowDataUrl)])
  {
    r.(url := Some(UrlOptions(message, schemes, allowLocal, allowDataUrl)))
  }

  /** `custom(func)`, src/ControlRules.ts:279-282. */
  function WithCustom(r: RuleItem, func: FunctionToken): (r': RuleItem)
    ensures AgreeExcept(r, r', CustomKind)
    ensures r'.custom == Some(func)
    ensures Keys(r') == Keys(r) + {CustomKind}
  {
    r.(custom := Some(func))
  }

  /** `customAsync(func)`, src/ControlRules.ts:284-287. */
  function WithCustomAsync(r: RuleItem, func: FunctionToken): (r': RuleItem)
    ensures AgreeExcept(r, r', CustomAsyncKind)
    ensures r'.customAsync == Some(func)
    ensures Keys(r') == Keys(r) + {CustomAsyncKind}
  {
    r.(customAsync := Some(func))
  }

  // ---------------------------------------------------------------------------
  // Properties of chains of steps

  /** Setting one length bound keeps the other: `minimum` survives `maxLength` and
      `maximum` survives `minLength`, and a later step without a message keeps the
      earlier message. */
  lemma LengthBoundsAccumulate(r: RuleItem, min: JsNumber, max: JsNumber, m: Option<string>)
    ensures var l := LengthOf(WithMaxLength(WithMinLength(r, min, m), max, None));
      l.minimum == Some(min) && l.maximum == Some(max) && l.tooShort == IfTruthy(m, LengthOf(r).tooShort)
    ensures var l := LengthOf(WithMinLength(WithMaxLength(r, max, m), min, None));
      l.minimum == Some(min) && l.maximum == Some(max) && l.tooLong == IfTruthy(m, LengthOf(r).tooLong)
  {
    var a := WithMinLength(r, min, m);
    assert LengthProp(LengthOf(a), "minimum") == Number(min);
    assert LengthProp(LengthOf(a), "tooShort") == OfText(IfTruthy(m, LengthOf(r).tooShort));
    var b := WithMaxLength(r, max, m);
    assert LengthProp(LengthOf(b), "maximum") == Number(max);
    assert LengthProp(LengthOf(b), "tooLong") == OfText(IfTruthy(m, LengthOf(r).tooLong));
  }

  /** A tokenizer set by `lengthConfig` survives every later length bound. */
  lemma TokenizerSurvivesBounds(r: RuleItem, t: FunctionToken, n: JsNumber, m: Option<string>)
    ensures LengthOf(WithMinLength(WithLengthConfig(r, Some(t), None, None), n, m)).tokenizer == Some(t)
    ensures LengthOf(WithMaxLength(WithLengthConfig(r, Some(t), None, None), n, m)).tokenizer == Some(t)
    ensures LengthOf(WithLength(WithLengthConfig(r, Some(t), None, None), n, m)).tokenizer == Some(t)
  {
  }

  /** `integer` and `double` decide `onlyInteger` by whichever came last, and leave the
      comparison bounds alone. */
  lemma LastIntegerFlagWins(r: RuleItem, v: JsNumber, m: Option<string>)
    ensures NumericalityOf(WithDouble(WithInteger(r, m))).onlyInteger == Some(false)
    ensures NumericalityOf(WithInteger(WithDouble(r), m)).onlyInteger == Some(true)
    ensures NumericalityOf(WithDouble(WithGreaterThan(r, v, m))).greaterThan == Some(v)
  {
  }

  // ---------------------------------------------------------------------------
  // The builder object

  /** `class ControlRules`: one private rule record, updated in place by every step;
      each step returns the builder itself. */
  class ControlRules {
    var rules: RuleItem

    /** `private rules: IFormRuleItem = {}` */
    constructor()
      ensures rules == NoRules
    {
      rules := NoRules;
    }

    method Date(dateOnly: Option<bool>, invalidDate: Option<string>, overrideMessage: Option<string>) returns (self: ControlRules)
      modifies this
      ensures self == this
      ensures rules == WithDate(old(rules), dateOnly, invalidDate, overrideMessage)
    {
      var d := DatetimeOf(rules);
      if dateOnly.Some? {
        d := d.(dateOnly := dateOnly);
      }
      if TruthyText(invalidDate) {
        d := d.(notValid := invalidDate);
      }
      if TruthyText(overrideMessage) {
        d := d.(message := overrideMessage);
      }
      rules := rules.(datetime := Some(d));
      self := this;
    }

    method BeforeDate(date: JsValue, message: Option<string>) returns (self: ControlRules)
      modifies this
      ensures self == this
      ensures rules == WithBeforeDate(old(rules), date, message)
    {
      var d := DatetimeOf(rules).(latest := Some(date));
      if TruthyText(message) {
        d := d.(tooLate := message);
      }
      rules := rules.(datetime := Some(d));
      self := this;
    }

    method AfterDate(date: JsValue, message: Option<string>) returns (self: ControlRules)
      modifies this
      ensures self == this
      ensures rules == WithAfterDate(old(rules), date, message)
    {
      var d := DatetimeOf(rules).(earliet := Some(date));
      if TruthyText(message) {
        d := d.(tooEarly := message);
      }
      rules := rules.(datetime := Some(d));
      self := this;
    }

    method Email(message: Option<string>) returns (self: ControlRules)
      modifies this
      ensures self == this
      ensures rules == WithEmail(old(rules), message)
    {
      rules := rules.(email := Some(if TruthyText(message) then EmailMessage(message.value) else EmailFlag(true)));
      self := this;
    }

    method SameAs(controlName: string, message: Option<string>, comparator: Option<FunctionToken>) returns (self: ControlRules)
      modifies this
      ensures self == this
      ensures rules == WithSameAs(old(rules), controlName, message, comparator)
    {
      var e := EqualityOptions(controlName, None, None);
      if TruthyText(message) {
        e := e.(message := message);
      }
      if comparator.Some? {
        e := e.(comparator := comparator);
      }
      rules := rules.(equality := Some(e));
      self := this;
    }

    method Excludes(exclusions: JsValue, message: Option<string>) returns (self: ControlRules)
      modifies this
      ensures self == this
      ensures rules == WithExcludes(old(rules), exclusions, message)
    {
      var w := WithinOptions(exclusions, None);
      if TruthyText(message) {
        w := w.(message := message);
      }
      rules := rules.(exclusion := Some(w));
      self := this;
    }

    method Matches(pattern: Pattern, flags: Option<string>, message: Option<string>) returns (self: ControlRules)
      modifies this
      ensures self == this
      ensures rules == WithMatches(old(rules), pattern, flags, message)
    {
      var f := FormatOptions(pattern, None, None);
      if TruthyText(flags) {
        f := f.(flags := flags);
      }
      if TruthyText(message) {
        f := f.(message := message);
      }
      rules := rules.(format := Some(f));
      self := this;
    }

    method Includes(inclusions: JsValue, message: Option<string>) returns (self: ControlRules)
      modifies this
      ensures self == this
      ensures rules == WithIncludes(old(rules), inclusions, message)
    {
      var w := WithinOptions(inclusions, None);
      if TruthyText(message) {
        w := w.(message := message);
      }
      rules := rules.(inclusion := Some(w));
      self := this;
    }

    method LengthConfig(tokenizer: Option<FunctionToken>, notValid: Option<string>, overrideMessage: Option<string>) returns (self: ControlRules)
      modifies this
      ensures self == this
      ensures rules == WithLengthConfig(old(rules), tokenizer, notValid, overrideMessage)
    {
      var l := LengthOf(rules);
      if TruthyText(overrideMessage) {
        l := l.(message := overrideMessage);
      }
      if TruthyText(notValid) {
        l := l.(notValid := notValid);
      }
      if tokenizer.Some? {
        l := l.(tokenizer := tokenizer);
      }
      rules := rules.(length := Some(l));
      self := this;
    }

    method Length(length: JsNumber, message: Option<string>) returns (self: ControlRules)
      modifies this
      ensures self == this
      ensures rules == WithLength(old(rules), length, message)
    {
      var l := LengthOf(rules).(exact := Some(length));
      if TruthyText(message) {
        l := l.(wrongLength := message);
      }
      rules := rules.(length := Some(l));
      self := this;
    }

    method MinLength(length: JsNumber, message: Option<string>) returns (self: ControlRules)
      modifies this
      ensures self == this
      ensures rules == WithMinLength(old(rules), length, message)
    {
      var l := LengthOf(rules).(minimum := Some(length));
      if TruthyText(message) {
        l := l.(tooShort := message);
      }
      rules := rules.(length := Some(l));
      self := this;
    }

    method MaxLength(length: JsNumber, message: Option<string>) returns (self: ControlRules)
      modifies this
      ensures self == this
      ensures rules == WithMaxLength(old(rules), length, message)
    {
      var l := LengthOf(rules).(maximum := Some(length));
      if TruthyText(message) {
        l := l.(tooLong := message);
      }
      rules := rules.(length := Some(l));
      self := this;
    }

    method Number(notValid: Option<string>, useStrict: Option<bool>, overrideMessage: Option<string>) returns (self: ControlRules)
      modifies this
      ensures self == this
      ensures rules == WithNumber(old(rules), notValid, useStrict, overrideMessage)
    {
      var n := NumericalityOf(rules);
      if useStrict.Some? {
        n := n.(strict := useStrict);
      }
      if TruthyText(notValid) {
        n := n.(notValid := notValid);
      }
      if TruthyText(overrideMessage) {
        n := n.(message := overrideMessage);
      }
      rules := rules.(numericality := Some(n));
      self := this;
    }

    method Integer(message: Option<string>) returns (self: ControlRules)
      modifies this
      ensures self == this
      ensures rules == WithInteger(old(rules), message)
    {
      var n := NumericalityOf(rules).(onlyInteger := Some(true));
      if TruthyText(message) {
        n := n.(notInteger := message);
      }
      rules := rules.(numericality := Some(n));
      self := this;
    }

    method Double() returns (self: ControlRules)
      modifies this
      ensures self == this
      ensures rules == WithDouble(old(rules))
    {
      rules := rules.(numericality := Some(NumericalityOf(rules).(onlyInteger := Some(false))));
      self := this;
    }

    method GreaterThan(value: JsNumber, message: Option<string>) returns (self: ControlRules)
      modifies this
      ensures self == this
      ensures rules == WithGreaterThan(old(rules), value, message)
    {
      var n := NumericalityOf(rules).(greaterThan := Some(value));
      if TruthyText(message) {
        n := n.(notGreaterThan := message);
      }
      rules := rules.(numericality := Some(n));
      self := this;
    }

    method GreaterThanOrEquals(value: JsNumber, message: Option<string>) returns (self: ControlRules)
      modifies this
      ensures self == this
      ensures rules == WithGreaterThanOrEquals(old(rules), value, message)
    {
      var n := NumericalityOf(rules).(greaterThanOrEqualTo := Some(value));
      if TruthyText(message) {
        n := n.(notGreaterThanOrEqualTo := message);
      }
      rules := rules.(numericality := Some(n));
      self := this;
    }

    method Equals(value: JsNumber, message: Option<string>) returns (self: ControlRules)
      modifies this
      ensures self == this
      ensures rules == WithEquals(old(rules), value, message)
    {
      var n := NumericalityOf(rules).(equalTo := Some(value));
      if TruthyText(message) {
        n := n.(notEqualTo := message);
      }
      rules := rules.(numericality := Some(n));
      self := this;
    }

    method LessThanOrEquals(value: JsNumber, message: Option<string>) returns (self: ControlRules)
      modifies this
      ensures self == this
      ensures rules == WithLessThanOrEquals(old(rules), value, message)
    {
      var n := NumericalityOf(rules).(lessThanOrEqualTo := Some(value));
      if TruthyText(message) {
        n := n.(notLessThanOrEqualTo := message);
      }
      rules := rules.(numericality := Some(n));
      self := this;
    }

    method LessThan(value: JsNumber, message: Option<string>) returns (self: ControlRules)
      modifies this
      ensures self == this
      ensures rules == WithLessThan(old(rules), value, message)
    {
      var n := NumericalityOf(rules).(lessThan := Some(value));
      if TruthyText(message) {
        n := n.(notLessThan := message);
      }
      rules := rules.(numericality := Some(n));
      self := this;
    }

    method DivisibleBy(value: JsNumber, message: Option<string>) returns (self: ControlRules)
      modifies this
      ensures self == this
      ensures rules == WithDivisibleBy(old(rules), value, message)
    {
      var n := NumericalityOf(rules).(divisibleBy := Some(value));
      if TruthyText(message) {
        n := n.(notDivisibleBy := message);
      }
      rules := rules.(numericality := Some(n));
      self := this;
    }

    method Odd(message: Option<string>) returns (self: ControlRules)
      modifies this
      ensures self == this
      ensures rules == WithOdd(old(rules), message)
    {
      var n := NumericalityOf(rules).(odd := Some(true));
      if TruthyText(message) {
        n := n.(notOdd := message);
      }
      rules := rules.(numericality := Some(n));
      self := this;
    }

    method Even(message: Option<string>) returns (self: ControlRules)
      modifies this
      ensures self == this
      ensures rules == WithEven(old(rules), message)
    {
      var n := NumericalityOf(rules).(even := Some(true));
      if TruthyText(message) {
        n := n.(notEven := message);
      }
      rules := rules.(numericality := Some(n));
      self := this;
    }

    method Required(message: Option<string>, allowEmpty: Option<bool>) returns (self: ControlRules)
      modifies this
      ensures self == this
      ensures rules == WithRequired(old(rules), message, allowEmpty)
    {
      rules := rules.(presence := Some(PresenceRule(
        Some(if allowEmpty.None? then false else allowEmpty.value),
        if TruthyText(message) then message else None)));
      self := this;
    }

    method IsType(typeName: string, message: Option<string>) returns (self: ControlRules)
      modifies this
      ensures self == this
      ensures rules == WithType(old(rules), typeName, message)
    {
      rules := rules.(typeRule := Some(TypeOptions(typeName, if TruthyText(message) then message else None)));
      self := this;
    }

    method Url(message: Option<string>, schemes: Option<seq<string>>, allowLocal: Option<bool>, allowDataUrl: Option<bool>) returns (self: ControlRules)
      modifies this
      ensures self == this
      ensures rules == WithUrl(old(rules), message, schemes, allowLocal, allowDataUrl)
    {
      var config := UrlOptions(message, schemes, allowLocal, allowDataUrl);
      rules := rules.(url := Some(config));
      self := this;
    }

    method Custom(func: FunctionToken) returns (self: ControlRules)
      modifies this
      ensures self == this
      ensures rules == WithCustom(old(rules), func)
    {
      rules := rules.(custom := Some(func));
      self := this;
    }

    method CustomAsync(func: FunctionToken) returns (self: ControlRules)
      modifies this
      ensures self == this
      ensures rules == WithCustomAsync(old(rules), func)
    {
      rules := rules.(customAsync := Some(func));
      self := this;
    }

    /** `rawRules(rules)`: swaps the whole record. */
    method RawRules(raw: RuleItem) returns (self: ControlRules)
      modifies this
      ensures self == this
      ensures rules == raw
    {
      rules := raw;
      self := this;
    }

    /** `serialize()`: the accumulated record. */
    method Serialize() returns (r: RuleItem)
      ensures r == rules
    {
      r := rules;
    }
  }

  /** A fresh builder given `rawRules(r)` serializes to exactly `r`
      (src/__tests__/constrain.test.ts:309-320). */
  method RawRulesRoundTrip(r: RuleItem) returns (s: RuleItem)
    ensures s == r
  {
    var b := new ControlRules();
    var _ := b.RawRules(r);
    s := b.Serialize();
  }

  /** `required().minLength(6)` builds a record with exactly the two kinds it names,
      `presence` defaulting `allowEmpty` to false (the password control of
      src/__tests__/form-group.test.ts:7-10). */
  method RequiredMinLength() returns (s: RuleItem)
    ensures Keys(s) == {PresenceKind, LengthKind}
    ensures s.presence == Some(PresenceRule(Some(false), None))
    ensures s.length.Some? && s.length.value.minimum == Some(6.0) && s.length.value.maximum == None
  {
    var b := new ControlRules();
    var _ := b.Required(None, None);
    var _ := b.MinLength(6.0, None);
    s := b.Serialize();
  }

  /** `rawRules({datetime: {earliest}})` then `afterDate(date)`: because of the
      misspelt key, the lower bound validate.js reads is still the raw one and
      the new date sits under `earliet`. */
  method AfterDateKeepsEarliest(earliest: JsValue, date: JsValue) returns (s: RuleItem)
    ensures s.datetime.Some?
    ensures DatetimeProp(s.datetime.value, "earliest") == earliest
    ensures DatetimeProp(s.datetime.value, "earliet") == date
  {
    var b := new ControlRules();
    var _ := b.RawRules(NoRules.(datetime := Some(EmptyDatetime.(earliest := Some(earliest)))));
    var _ := b.AfterDate(date, None);
    s := b.Serialize();
  }
}

=== FILE: Constants.dfy ===
/** The two extensions the library installs into validate.js (src/constants.ts):
    the `mapped` error formatter and the synchronous `custom` validator. */
module Constants {
  import opened Wrappers
  import opened Js

  /** One detailed error record as validate.js hands it to a formatter: the
      attribute that failed, the validator that failed it and the message. */
  datatype DetailedError = DetailedError(attribute: string, validator: string, error: string)

  /** attribute -> validator -> message */
  type MappedErrors = map<string, map<string, string>>

  /** The message stored for `attribute` under `validator`, if any. */
  function Entry(m: MappedErrors, attribute: string, validator: string): Option<string> {
    if attribute in m && validator in m[attribute] then Some(m[attribute][validator]) else None
  }

  /** Reference meaning of the formatter: the message of the LAST record for
      that attribute and validator, or nothing when there is no such record. */
  function LastError(errors: seq<DetailedError>, attribute: string, validator: string): Option<string>
  {
    if |errors| == 0 then None
    else
      var e := errors[|errors| - 1];
      if e.attribute == attribute && e.validator == validator then Some(e.error)
      else LastError(errors[..|errors| - 1], attribute, validator)
  }

  /** The attributes that have at least one record. */
  function Attributes(errors: seq<DetailedError>): set<string> {
    set e | e in errors :: e.attribute
  }

  /** `validate.formatters.mapped`: folds the records, left to right, into an
      object keyed by attribute and then by validator; a later record for the
      same pair overwrites an earlier one. */
  method Mapped(errors: seq<DetailedError>) returns (m: MappedErrors)
    ensures m.Keys == Attributes(errors)
    ensures forall a, v :: Entry(m, a, v) == LastError(errors, a, v)
  {
    m := map[];
    var i := 0;
    while i < |errors|
      invariant 0 <= i <= |errors|
      invariant m.Keys == Attributes(errors[..i])
      invariant forall a, v :: Entry(m, a, v) == LastError(errors[..i], a, v)
    {
      var e := errors[i];
      if e.attribute !in m {
        m := m[e.attribute := map[]];
      }
      m := m[e.attribute := m[e.attribute][e.validator := e.error]];
      assert errors[..i + 1][..i] == errors[..i];
      assert errors[..i + 1] == errors[..i] + [e];
      i := i + 1;
    }
    assert errors[..|errors|] == errors;
  }

  /** `validate.validators.custom(value, options)`: `options` is either the error
      itself or an object whose `message` is the error. The validator reports an
      error (a non-null result) exactly when `options` is truthy and, if it is an
      object, carries a truthy `message`; what it reports is then that message or
      `options` itself. */
  function Custom(options: JsValue): (r: JsValue)
    ensures r != Null <==> Truthy(options) && (!IsObject(options) || Truthy(Property(options, "message")))
    ensures r != Null ==> Truthy(r)
    ensures r != Null && IsObject(options) ==> r == Property(options, "message")
    ensures r != Null && !IsObject(options) ==> r == options
  {
    if !Truthy(options) then Null
    else
      var opts := if IsObject(options) then options else Object(map["message" := options]);
      var message := Property(opts, "message");
      if Truthy(message) then message else Null
  }

  /** A single record becomes a one-entry object under its attribute. */
  method MappedSingle(attribute: string, validator: string, error: string) returns (m: MappedErrors)
    ensures m == map[attribute := map[validator := error]]
  {
    var errors := [DetailedError(attribute, validator, error)];
    m := Mapped(errors);
    assert m.Keys == {attribute};
    forall v
      ensures v in m[attribute] <==> v == validator
    {
      assert Entry(m, attribute, v) == LastError(errors, attribute, v);
      assert LastError(errors[..0], attribute, v) == None;
    }
    assert Entry(m, attribute, validator) == Some(error);
    assert m[attribute] == map[validator := error];
  }
}

=== FILE: Control.dfy ===
/** One form field, `FormControl` (src/FormControl.ts): its name, whether the user
    touched it, its current error messages, whether an asynchronous check is
    pending, its value and the rule builder that describes it. Every setter
    updates one field in place and returns the control itself, so setters chain. */
module Control {
  import opened Wrappers
  import opened Builder

  /** The state of a control as a value: what a form group reads from it. */
  datatype FieldView = FieldView(name: string, touched: bool, errors: seq<string>, loading: bool, value: Option<string>)

  /** A field is in one of four display states: touched or not, with errors or not. */
  datatype Quadrant = TouchedWithError | UntouchedWithError | TouchedNoError | UntouchedNoError

  class FormControl {
    var name: string
    var touched: bool
    var errors: seq<string>
    var loading: bool
    /** `null` is `None`. */
    var value: Option<string>
    var rules: ControlRules

    /** A new control starts unnamed, untouched, without errors and not loading. */
    constructor(rules: ControlRules, value: Option<string>)
      ensures View() == FieldView("", false, [], false, value)
      ensures this.rules == rules
    {
      this.name := "";
      this.touched := false;
      this.errors := [];
      this.loading := false;
      this.value := value;
      this.rules := rules;
    }

    function View(): FieldView
      reads this
    {
      FieldView(name, touched, errors, loading, value)
    }

    method SetName(name: string) returns (self: FormControl)
      modifies this`name
      ensures self == this
      ensures View() == old(View()).(name := name)
    {
      this.name := name;
      self := this;
    }

    method SetTouched(touched: bool) returns (self: FormControl)
      modifies this`touched
      ensures self == this
      ensures View() == old(View()).(touched := touched)
    {
      this.touched := touched;
      self := this;
    }

    method SetErrors(errors: seq<string>) returns (self: FormControl)
      modifies this`errors
      ensures self == this
      ensures View() == old(View()).(errors := errors)
      ensures HasError() <==> errors != []
    {
      this.errors := errors;
      self := this;
    }

    method SetLoading(loading: bool) returns (self: FormControl)
      modifies this`loading
      ensures self == this
      ensures View() == old(View()).(loading := loading)
      ensures IsLoading() == loading
    {
      this.loading := loading;
      self := this;
    }

    /** True exactly when at least one error message is recorded. */
    function HasError(): (b: bool)
      reads this
      ensures b <==> Display() == TouchedWithError || Display() == UntouchedWithError
    {
      |errors| > 0
    }

    function IsLoading(): (b: bool)
      reads this
      ensures b == View().loading
    {
      loading
    }

    function TouchedAndHasError(): (b: bool)
      reads this
      ensures b <==> Display() == TouchedWithError
    {
      touched && HasError()
    }

    function UntouchedAndHasError(): (b: bool)
      reads this
      ensures b <==> Display() == UntouchedWithError
    {
      !touched && HasError()
    }

    function TouchedAndNoError(): (b: bool)
      reads this
      ensures b <==> Display() == TouchedNoError
    {
      touched && !HasError()
    }

    function UntouchedAndNoError(): (b: bool)
      reads this
      ensures b <==> Display() == UntouchedNoError
    {
      !touched && !HasError()
    }

    /** The display state, decided field by field. */
    function Display(): Quadrant
      reads this
    {
      if touched then (if errors == [] then TouchedNoError else TouchedWithError)
      else (if errors == [] then UntouchedNoError else UntouchedWithError)
    }

    method SetValue(value: Option<string>) returns (self: FormControl)
      modifies this`value
      ensures self == this
      ensures View() == old(View()).(value := value)
      ensures GetValue() == value
    {
      this.value := value;
      self := this;
    }

    function GetValue(): Option<string>
      reads this
    {
      value
    }

    method SetRules(rules: ControlRules) returns (self: FormControl)
      modifies this`rules
      ensures self == this
      ensures View() == old(View())
      ensures GetRules() == rules
    {
      this.rules := rules;
      self := this;
    }

    function GetRules(): ControlRules
      reads this
    {
      rules
    }
  }

  /** Exactly one of the four display predicates holds for any control. */
  lemma ExactlyOneQuadrant(c: FormControl)
    ensures c.TouchedAndHasError() || c.UntouchedAndHasError() || c.TouchedAndNoError() || c.UntouchedAndNoError()
    ensures c.TouchedAndHasError() ==> !c.UntouchedAndHasError() && !c.TouchedAndNoError() && !c.UntouchedAndNoError()
    ensures c.UntouchedAndHasError() ==> !c.TouchedAndNoError() && !c.UntouchedAndNoError()
    ensures c.TouchedAndNoError() ==> !c.UntouchedAndNoError()
  {
  }
}

=== FILE: Group.dfy ===
/** `class FormGroup` (src/FormGroup.ts): a set of named controls validated
    together. The group keeps references to its controls and bookkeeping about
    them, and changes both in place. Each method is proved to perform exactly
    the transition of the same name in module `GroupSpec`, on the group's state
    read as a `GroupState`, and to keep the group well formed. */
module Group {
  import opened Wrappers
  import opened Js
  import opened Rules
  import opened Builder
  import opened Control
  import opened GroupSpec

  /** The fields of the controls of a name -> control map. */
  ghost function ViewsOf(m: map<string, FormControl>): map<string, FieldView>
    reads m.Values
  {
    map k | k in m :: m[k].View()
  }

  /** What `getRules().serialize()` returns for each control of the map. */
  ghost function ItemsOf(m: map<string, FormControl>): map<string, RuleItem>
    reads m.Values, set k | k in m :: m[k].rules
  {
    map k | k in m :: m[k].rules.rules
  }

  /** Distinct names hold distinct controls. */
  ghost predicate Injective(m: map<string, FormControl>) {
    forall a, b :: a in m && b in m && a != b ==> m[a] != m[b]
  }

  /** The argument of `addControls` / the constructor: an object whose keys, in
      order, are `names`, holding distinct controls that are not yet part of
      `group`. */
  ghost predicate NewControls(names: seq<string>, incoming: map<string, FormControl>, group: map<string, FormControl>) {
    (forall k :: k in names <==> k in incoming)
    && Injective(incoming)
    && (forall k, j :: k in incoming && j in group ==> incoming[k] != group[j])
  }

  /** The setter chain an edit stands for, run on one control. */
  method RunEdit(control: FormControl, key: string, e: Edit)
    modifies control
    ensures control.View() == Apply(e, key, old(control.View()))
    ensures control.rules == old(control.rules)
  {
    match e {
      case SetTouched(t) =>
        var _ := control.SetTouched(t);
      case Clear =>
        var c1 := control.SetErrors([]);
        var c2 := c1.SetLoading(false);
        var _ := c2.SetTouched(false);
      case Errors(found) =>
        var _ := control.SetErrors(ErrorsFor(found, key));
      case TouchErrors(found) =>
        var c1 := control.SetTouched(true);
        var _ := c1.SetErrors(ErrorsFor(found, key));
      case Loading(l) =>
        var _ := control.SetLoading(l);
      case Assign(incoming) =>
        if key in incoming {
          var _ := control.SetValue(incoming[key]);
        }
    }
  }

  /** Dropping a name from the map drops its fields. */
  lemma ViewsWithout(m: map<string, FormControl>, name: string)
    ensures ViewsOf(m - {name}) == ViewsOf(m) - {name}
  {
  }

  /** The controls of `incoming` under `names`. */
  function Picked(names: seq<string>, incoming: map<string, FormControl>): map<string, FormControl> {
    map k | k in names && k in incoming :: incoming[k]
  }

  lemma PickedStep(names: seq<string>, i: nat, incoming: map<string, FormControl>)
    requires i < |names| && names[i] in incoming
    ensures Picked(names[..i + 1], incoming) == Picked(names[..i], incoming)[names[i] := incoming[names[i]]]
  {
    assert forall k :: k in names[..i + 1] <==> k in names[..i] || k == names[i] by {
      assert names[..i + 1] == names[..i] + [names[i]];
    }
  }

  /** New controls, distinct and not yet in the group, keep it injective. */
  lemma UnionInjective(group: map<string, FormControl>, names: seq<string>, incoming: map<string, FormControl>)
    requires Injective(group) && NewControls(names, incoming, group)
    ensures Injective(group + Picked(names, incoming))
  {
  }

  /** The fields of controls that did not change did not change. */
  twostate lemma ViewsUnchanged(m: map<string, FormControl>)
    requires unchanged(m.Values)
    ensures ViewsOf(m) == old(ViewsOf(m))
  {
  }

  /** The rules of controls whose rule builders did not change did not change. */
  twostate lemma ItemsUnchanged(m: map<string, FormControl>)
    requires unchanged(m.Values) && unchanged(set k | k in m :: m[k].rules)
    ensures ItemsOf(m) == old(ItemsOf(m))
  {
  }

  lemma ViewsOfUnion(a: map<string, FormControl>, b: map<string, FormControl>)
    ensures ViewsOf(a + b) == ViewsOf(a) + ViewsOf(b)
  {
  }

  lemma ViewsOfPicked(names: seq<string>, incoming: map<string, FormControl>)
    ensures ViewsOf(Picked(names, incoming)) == NewViews(names, ViewsOf(incoming))
  {
  }

  /** Storing a control under a name stores its fields. */
  lemma ViewsStore(m: map<string, FormControl>, name: string, c: FormControl)
    ensures ViewsOf(m[name := c]) == ViewsOf(m)[name := c.View()]
  {
  }

  /** What the loop of `_addMultipleControls` builds: the group's controls,
      values, rules (collected in a copy) and lists, and the new controls'
      values and rules. */
  datatype Tally = Tally(controls: map<string, FormControl>, values: Values, rules: FormRules,
                         customRuleKeys: seq<string>, customAsyncRuleKeys: seq<string>, newValues: Values, newRules: FormRules)

  /** The loop from `t`, in closed form, once it has recorded the controls `done`. */
  function Tallied(t: Tally, done: seq<string>, incoming: map<string, FormControl>, views: map<string, FieldView>, items: map<string, RuleItem>): Tally {
    Tally(t.controls + Picked(done, incoming), t.values + NewValues(done, views), t.rules + NewRules(done, items),
          t.customRuleKeys + CustomNames(done, items), t.customAsyncRuleKeys + AsyncNames(done, items),
          NewValues(done, views), NewRules(done, items))
  }

  /** One iteration of the loop. */
  function TallyOne(t: Tally, key: string, control: FormControl, value: Option<string>, item: RuleItem): Tally {
    Tally(t.controls[key := control], t.values[key := value], t.rules[key := item],
          t.customRuleKeys + (if OnlyCustom(item) then [key] else []),
          t.customAsyncRuleKeys + (if item.customAsync.Some? then [key] else []),
          t.newValues[key := value], t.newRules[key := item])
  }

  /** Before the loop, nothing is recorded yet. */
  lemma TalliedNone(t: Tally, names: seq<string>, incoming: map<string, FormControl>, views: map<string, FieldView>, items: map<string, RuleItem>)
    requires t.newValues == map[] && t.newRules == map[]
    ensures Tallied(t, names[..0], incoming, views, items) == t
  {
    assert names[..0] == [];
    assert Picked([], incoming) == map[];
    assert NewValues([], views) == map[];
    assert NewRules([], items) == map[];
  }

  lemma TalliedStep(t: Tally, names: seq<string>, i: nat, incoming: map<string, FormControl>, views: map<string, FieldView>, items: map<string, RuleItem>)
    requires i < |names| && names[i] in incoming && names[i] in views && names[i] in items
    ensures Tallied(t, names[..i + 1], incoming, views, items)
         == TallyOne(Tallied(t, names[..i], incoming, views, items), names[i], incoming[names[i]], views[names[i]].value, items[names[i]])
  {
    var key := names[i];
    PickedStep(names, i, incoming);
    NewMapsStep(names, i, views, items);
    NamesStep(names, i, items);
    UnionUpdate(t.controls, Picked(names[..i], incoming), key, incoming[key]);
    UnionUpdate(t.values, NewValues(names[..i], views), key, views[key].value);
    UnionUpdate(t.rules, NewRules(names[..i], items), key, items[key]);
  }

  /** Stripping for no listed name leaves the rules as they are. */
  lemma StripNone(rules: FormRules, name: string)
    ensures StripAsync(rules, [], name) == rules
  {
  }

  /** Stripping for one more listed name. */
  lemma StripAsyncStep(rules: FormRules, keys: seq<string>, i: nat, name: string)
    requires i < |keys| && keys[i] in rules
    ensures var before := StripAsync(rules, keys[..i], name);
      StripAsync(rules, keys[..i + 1], name)
        == if keys[i] == name then before else before[keys[i] := before[keys[i]].(customAsync := None)]
  {
    assert keys[..i + 1] == keys[..i] + [keys[i]];
  }

  class FormGroup {
    var controls: map<string, FormControl>
    var considered: seq<string>
    var rules: FormRules
    var customRuleKeys: seq<string>
    var customAsyncRuleKeys: seq<string>
    var values: Values
    var valid: bool
    var renderCallback: Option<FunctionToken>
    /** The `valid` argument of every call of the render callback, oldest first. */
    ghost var renders: seq<bool>

    ghost function State(): GroupState
      reads this, controls.Values
    {
      GroupState(ViewsOf(controls), considered, rules, customRuleKeys, customAsyncRuleKeys, values, valid, renderCallback, renders)
    }

    /** The class invariant: the state is well formed, the validity flag does
        not claim validity while a control blocks it, and no control object is
        shared between two names. */
    ghost predicate Valid()
      reads this, controls.Values
    {
      WellFormed(State()) && HonestValidity(State()) && Injective(controls)
    }

    /** The invariant, from a well-formed state with honest validity. */
    lemma ValidFrom(g: GroupState)
      requires State() == g && WellFormed(g) && HonestValidity(g) && Injective(controls)
      ensures Valid()
    {
    }

    // -------------------------------------------------------------------------
    // Private helpers

    /** `callRender` */
    method CallRender()
      modifies this`renders
      ensures renders == old(renders) + (if renderCallback.Some? then [valid] else [])
      ensures State() == GroupSpec.Render(old(State()))
    {
      if renderCallback.Some? {
        renders := renders + [valid];
      }
    }

    /** `updateValidState`: stops at the first considered control with an error
        or a pending check. */
    method UpdateValidState()
      requires forall k :: k in considered ==> k in controls
      modifies this`valid, this`renders
      ensures State() == GroupSpec.UpdateValidState(old(State()))
    {
      ghost var g := State();
      for i := 0 to |considered|
        invariant forall j :: 0 <= j < i ==> !Blocking(g.fields[considered[j]])
      {
        var control := controls[considered[i]];
        if control.HasError() || control.IsLoading() {
          assert Blocking(g.fields[considered[i]]);
          valid := false;
          ViewsUnchanged(controls);
          return;
        }
      }
      valid := true;
      ViewsUnchanged(controls);
      CallRender();
    }

    /** One setter chain on the control `key`; no other control changes. */
    method EditControl(key: string, e: Edit)
      requires key in controls && Injective(controls)
      modifies controls[key]
      ensures ViewsOf(controls) == EditAt(old(ViewsOf(controls)), key, e)
    {
      var control := controls[key];
      ghost var before := ViewsOf(controls);
      RunEdit(control, key, e);
      forall k | k in controls && k != key
        ensures controls[k].View() == before[k]
      {
        assert controls[k] != control;
      }
      assert ViewsOf(controls) == before[key := control.View()];
    }

    /** The same setter chain on every listed control, in order. */
    method EditEachControl(keys: seq<string>, e: Edit)
      requires forall k :: k in keys ==> k in controls
      requires Injective(controls)
      modifies set k | k in keys :: controls[k]
      ensures ViewsOf(controls) == EditEach(old(ViewsOf(controls)), keys, e)
    {
      ghost var fields := ViewsOf(controls);
      for i := 0 to |keys|
        invariant ViewsOf(controls) == EditEach(fields, keys[..i], e)
      {
        EditEachStep(fields, keys, i, e);
        EditControl(keys[i], e);
      }
      assert keys[..|keys|] == keys;
    }

    /** `_syncRevalidate(keys, values, rules)` */
    method SyncRevalidate(keys: seq<string>, vals: Values, rls: FormRules, eval: SyncEvaluator)
      requires forall k :: k in keys ==> k in controls
      requires forall k :: k in considered ==> k in controls
      requires Injective(controls)
      modifies this`valid, this`renders, set k | k in keys :: controls[k]
      ensures State() == GroupSpec.SyncRevalidate(old(State()), keys, vals, rls, eval)
    {
      var errors := eval(vals, rls).GetOr(map[]);
      EditEachControl(keys, Errors(errors));
      UpdateValidState();
    }

    /** `updateControlValue(name, value)` */
    method UpdateControlValue(name: string, value: Option<string>)
      requires name in controls && Injective(controls)
      modifies this`values, controls[name]
      ensures State() == GroupSpec.UpdateControlValue(old(State()), name, value)
    {
      values := values[name := value];
      EditControl(name, Assign(map[name := value]));
    }

    // -------------------------------------------------------------------------
    // Public operations

    /** `get(controlName)`: the control of that name, or `null` (`None`). In
        a valid group exactly the considered names have a control. */
    function Get(name: string): (c: Option<FormControl>)
      reads this, controls.Values
      ensures c.Some? <==> name in controls
      ensures c.Some? ==> c.value in controls.Values && c.value.View() == State().fields[name]
      ensures Valid() ==> (c.Some? <==> name in considered)
    {
      if name in controls then Some(controls[name]) else None
    }

    /** `getControls()`: the name -> control record itself. */
    function GetControls(): (m: map<string, FormControl>)
      reads this, controls.Values
      ensures ViewsOf(m) == State().fields
      ensures Valid() ==> forall k :: k in m <==> k in considered
    {
      controls
    }

    /** `values()`: in a valid group, every control's current value under its
        name. */
    function GetValues(): (v: Values)
      reads this, controls.Values
      ensures v == State().values
      ensures Valid() ==> v.Keys == controls.Keys && forall k :: k in v ==> v[k] == controls[k].value
    {
      values
    }

    /** `valid()`: in a valid group, true only when no considered control has
        an error or a pending check. */
    function IsValid(): (b: bool)
      reads this, controls.Values
      ensures b == State().valid
      ensures Valid() && b ==> forall k :: k in considered ==> !controls[k].HasError() && !controls[k].IsLoading()
    {
      valid
    }

    /** `invalid()`: the negation of `valid()`. */
    function IsInvalid(): (b: bool)
      reads this, controls.Values
      ensures b != IsValid()
    {
      !valid
    }

    /** `touchAll()` */
    method TouchAll()
      requires Valid()
      modifies this`renders, controls.Values
      ensures Valid()
      ensures State() == GroupSpec.ToggleTouched(old(State()), true)
    {
      ToggleTouched(true);
    }

    /** `unTouchAll()` */
    method UnTouchAll()
      requires Valid()
      modifies this`renders, controls.Values
      ensures Valid()
      ensures State() == GroupSpec.ToggleTouched(old(State()), false)
    {
      ToggleTouched(false);
    }

    /** `toggleTouched(touchedState)` */
    method ToggleTouched(touched: bool)
      requires Valid()
      modifies this`renders, controls.Values
      ensures Valid()
      ensures State() == GroupSpec.ToggleTouched(old(State()), touched)
    {
      ghost var g := State();
      TouchEach(touched);
      ToggleTouchedKeepsWellFormed(g, touched);
      ValidFrom(GroupSpec.ToggleTouched(g, touched));
    }

    /** The steps of `toggleTouched(touchedState)`. */
    method TouchEach(touched: bool)
      requires forall k :: k in considered ==> k in controls
      requires Injective(controls)
      modifies this`renders, controls.Values
      ensures State() == GroupSpec.ToggleTouched(old(State()), touched)
    {
      EditEachControl(considered, SetTouched(touched));
      CallRender();
    }

    /** `touch(controlName)`: `ok` is false exactly when there is no such control,
        where the source throws a `TypeError`; the group is then unchanged. */
    method Touch(name: string) returns (ok: bool)
      requires Valid()
      modifies this`renders, controls.Values
      ensures Valid()
      ensures ok <==> GroupSpec.Touch(old(State()), name).Some?
      ensures ok ==> State() == GroupSpec.Touch(old(State()), name).value
      ensures !ok ==> State() == old(State())
    {
      if name !in controls {
        return false;
      }
      ghost var g := State();
      TouchControl(name);
      TouchKeepsWellFormed(g, name);
      ValidFrom(GroupSpec.Touch(g, name).value);
      ok := true;
    }

    /** The steps of `touch(controlName)` for a known control. */
    method TouchControl(name: string)
      requires name in controls && Injective(controls)
      modifies this`renders, controls[name]
      ensures GroupSpec.Touch(old(State()), name).Some?
      ensures State() == GroupSpec.Touch(old(State()), name).value
    {
      EditControl(name, SetTouched(true));
      CallRender();
    }

    /** `render(callback)`: installs (or, with `None`, removes) the callback. */
    method Render(callback: Option<FunctionToken>)
      requires Valid()
      modifies this`renderCallback
      ensures Valid()
      ensures State() == old(State()).(renderCallback := callback)
    {
      ghost var g := State();
      renderCallback := callback;
      ViewsUnchanged(controls);
      ValidFrom(g.(renderCallback := callback));
    }

    /** `reset()` */
    method Reset()
      requires Valid()
      modifies this`valid, this`renders, controls.Values
      ensures Valid()
      ensures State() == GroupSpec.Reset(old(State()))
    {
      ghost var g := State();
      ClearConsidered();
      CallRender();
      ResetKeepsWellFormed(g);
      ValidFrom(GroupSpec.Reset(g));
    }

    /** The loop of `reset()` and the flag it lowers. */
    method ClearConsidered()
      requires forall k :: k in considered ==> k in controls
      requires Injective(controls)
      modifies this`valid, controls.Values
      ensures State() == old(State()).(fields := EditEach(old(State()).fields, considered, Clear), valid := false)
    {
      EditEachControl(considered, Clear);
      ghost var fields := ViewsOf(controls);
      valid := false;
      assert ViewsOf(controls) == fields;
    }

    /** `updateValues(values)` */
    method UpdateValues(incoming: Values, eval: SyncEvaluator)
      requires Valid()
      modifies this`values, this`valid, this`renders, controls.Values
      ensures Valid()
      ensures State() == GroupSpec.UpdateValues(old(State()), incoming, eval)
    {
      ghost var g := State();
      AssignAndRevalidate(incoming, eval);
      UpdateValuesKeepsWellFormed(g, incoming, eval);
      ValidFrom(GroupSpec.UpdateValues(g, incoming, eval));
    }

    /** The two steps of `updateValues(values)`. */
    method AssignAndRevalidate(incoming: Values, eval: SyncEvaluator)
      requires forall k :: k in considered ==> k in controls
      requires Injective(controls)
      modifies this`values, this`valid, this`renders, controls.Values
      ensures State() == GroupSpec.UpdateValues(old(State()), incoming, eval)
    {
      ghost var g := State();
      AssignConsideredValues(incoming);
      assert State() == AssignConsidered(g, incoming);
      SyncRevalidate(considered, values, rules, eval);
    }

    /** The loop of `updateValues(values)`: each considered control for which
        a value is given takes it. */
    method AssignConsideredValues(incoming: Values)
      requires forall k :: k in considered ==> k in controls
      requires Injective(controls)
      modifies this`values, controls.Values
      ensures values == AssignValues(old(values), considered, incoming)
      ensures ViewsOf(controls) == EditEach(old(ViewsOf(controls)), considered, Assign(incoming))
    {
      ghost var fields := ViewsOf(controls);
      ghost var before := values;
      for i := 0 to |considered|
        invariant values == AssignValues(before, considered[..i], incoming)
        invariant ViewsOf(controls) == EditEach(fields, considered[..i], Assign(incoming))
      {
        EditEachStep(fields, considered, i, Assign(incoming));
        AssignValuesStep(before, considered, i, incoming);
        AssignValue(considered[i], incoming);
      }
      assert considered[..|considered|] == considered;
    }

    /** One iteration of that loop: `updateControlValue(key, values[key])` when
        a value is given for the control. */
    method AssignValue(key: string, incoming: Values)
      requires key in controls && Injective(controls)
      modifies this`values, controls[key]
      ensures key in incoming ==> values == old(values)[key := incoming[key]]
      ensures key !in incoming ==> values == old(values)
      ensures ViewsOf(controls) == EditAt(old(ViewsOf(controls)), key, Assign(incoming))
    {
      if key in incoming {
        ghost var before := ViewsOf(controls);
        UpdateControlValue(key, incoming[key]);
        AssignOne(before, key, incoming);
      } else {
        AssignAbsent(ViewsOf(controls), key, incoming);
      }
    }

    /** `validate(event)`, with the deferred handler run to completion and the
        asynchronous check settling as `eval` says. */
    method Validate(t: EventTarget, eval: AsyncEvaluator)
      requires Valid()
      modifies this`values, this`valid, this`renders, controls.Values
      ensures Valid()
      ensures State() == GroupSpec.Validate(old(State()), t, eval)
    {
      var resolved := ResolveName(t);
      if resolved.None? || resolved.value !in considered {
        return;
      }
      ghost var g := State();
      ValidateControl(resolved.value, EventValue(t), eval);
      ValidateKeepsWellFormed(g, t, eval);
      ValidFrom(GroupSpec.Validate(g, t, eval));
    }

    /** The handler for the considered control `name` and the event's value. */
    method ValidateControl(name: string, value: Option<string>, eval: AsyncEvaluator)
      requires name in controls && name in rules && Injective(controls)
      requires forall k :: k in considered ==> k in controls
      requires forall k :: k in customRuleKeys ==> k in controls
      requires forall k :: k in customAsyncRuleKeys ==> k in rules
      modifies this`values, this`valid, this`renders, controls.Values
      ensures var g2 := GroupSpec.Prepare(old(State()), name, value);
        State() == Settle(g2, name, eval(g2.values, StripAsync(g2.rules, g2.customAsyncRuleKeys, name)))
    {
      var toValidate := PrepareControl(name, value);
      var outcome := eval(values, toValidate);
      SettleControl(name, outcome);
    }

    /** The handler up to the asynchronous check: the value is stored, the
        rules to check are computed, and a control with an asynchronous rule is
        marked loading before validity is recomputed and the form renders. */
    method PrepareControl(name: string, value: Option<string>) returns (toValidate: FormRules)
      requires name in controls && name in rules && Injective(controls)
      requires forall k :: k in considered ==> k in controls
      requires forall k :: k in customAsyncRuleKeys ==> k in rules
      modifies this`values, this`valid, this`renders, controls[name]
      ensures State() == GroupSpec.Prepare(old(State()), name, value)
      ensures toValidate == StripAsync(rules, customAsyncRuleKeys, name)
    {
      ghost var g := State();
      UpdateControlValue(name, value);
      toValidate := ValidationRules(name);
      if rules[name].customAsync.Some? {
        MarkLoading(name);
      }
    }

    /** `setLoading(true)` on the control, then `updateValidState()` and
        `callRender()`. */
    method MarkLoading(name: string)
      requires name in controls && Injective(controls)
      requires forall k :: k in considered ==> k in controls
      modifies this`valid, this`renders, controls[name]
      ensures State() == GroupSpec.Render(GroupSpec.UpdateValidState(old(State()).(fields := EditAt(old(State()).fields, name, Loading(true)))))
    {
      EditControl(name, Loading(true));
      UpdateValidState();
      CallRender();
    }

    /** The loop building `toValidateRules`: a copy of the rules in which every
        other asynchronous control loses its asynchronous rule. */
    method ValidationRules(name: string) returns (toValidate: FormRules)
      requires forall k :: k in customAsyncRuleKeys ==> k in rules
      ensures toValidate == StripAsync(rules, customAsyncRuleKeys, name)
    {
      toValidate := rules;
      StripNone(rules, name);
      for i := 0 to |customAsyncRuleKeys|
        invariant toValidate == StripAsync(rules, customAsyncRuleKeys[..i], name)
      {
        var key := customAsyncRuleKeys[i];
        StripAsyncStep(rules, customAsyncRuleKeys, i, name);
        if key != name {
          toValidate := toValidate[key := toValidate[key].(customAsync := None)];
        }
      }
      assert customAsyncRuleKeys[..|customAsyncRuleKeys|] == customAsyncRuleKeys;
    }

    /** The `then`/`catch`/`finally` chain once the check for `name` settles
        with `outcome`. */
    method SettleControl(name: string, outcome: AsyncOutcome)
      requires name in controls && Injective(controls)
      requires forall k :: k in customRuleKeys ==> k in controls
      requires forall k :: k in considered ==> k in controls
      modifies this`valid, this`renders, controls.Values
      ensures State() == GroupSpec.Settle(old(State()), name, outcome)
    {
      ghost var g := State();
      SettleViews(name, outcome);
      assert State() == g.(fields := SettleFields(g.fields, name, g.customRuleKeys, outcome));
      UpdateValidState();
      CallRender();
    }

    /** The handlers' edits of the controls, before validity is recomputed. */
    method SettleViews(name: string, outcome: AsyncOutcome)
      requires name in controls && Injective(controls)
      requires forall k :: k in customRuleKeys ==> k in controls
      modifies controls.Values
      ensures ViewsOf(controls) == SettleFields(old(ViewsOf(controls)), name, customRuleKeys, outcome)
    {
      AnswerControl(name, outcome);
      EditEachControl(customRuleKeys, TouchErrors(Found(outcome)));
      EditControl(name, Loading(outcome.Cancelled?));
    }

    /** The `then` handler, or the `catch` handler up to its rethrow. */
    method AnswerControl(name: string, outcome: AsyncOutcome)
      requires name in controls && Injective(controls)
      modifies controls[name]
      ensures ViewsOf(controls) == Answer(old(ViewsOf(controls)), name, outcome)
    {
      match outcome {
        case Resolved => EditControl(name, TouchErrors(map[]));
        case Cancelled => EditControl(name, Loading(true));
        case Rejected(errors) => EditControl(name, TouchErrors(errors));
        case Thrown =>
      }
    }

    /** One iteration of `removeControls`. */
    method RemoveControl(name: string)
      requires Valid()
      modifies this`controls, this`rules, this`values, this`considered, this`customRuleKeys, this`customAsyncRuleKeys, this`valid, this`renders
      ensures Valid()
      ensures State() == RemoveOne(old(State()), name)
    {
      if name in considered {
        ghost var g := State();
        ForgetAndRevalidate(name);
        RemoveOneKeepsWellFormed(g, name);
        ValidFrom(RemoveOne(g, name));
      }
    }

    /** The steps of `removeControls` for a considered control. */
    method ForgetAndRevalidate(name: string)
      requires name in considered && WellFormed(State())
      modifies this`controls, this`rules, this`values, this`considered, this`customRuleKeys, this`customAsyncRuleKeys, this`valid, this`renders
      ensures State() == RemoveOne(old(State()), name)
      ensures controls == old(controls) - {name}
    {
      ghost var g := State();
      ForgetControl(name);
      ForgetKeepsWellFormed(g, name);
      UpdateValidState();
    }

    /** Every trace of the control `name` goes. */
    method ForgetControl(name: string)
      modifies this`controls, this`rules, this`values, this`considered, this`customRuleKeys, this`customAsyncRuleKeys
      ensures State() == Forget(old(State()), name)
      ensures controls == old(controls) - {name}
    {
      ghost var m := controls;
      rules := rules - {name};
      controls := controls - {name};
      values := values - {name};
      considered := Without(considered, name);
      customRuleKeys := Without(customRuleKeys, name);
      customAsyncRuleKeys := Without(customAsyncRuleKeys, name);
      ViewsUnchanged(m);
      ViewsWithout(m, name);
    }

    /** `removeControls(...controlNames)` */
    method RemoveControls(names: seq<string>)
      requires Valid()
      modifies this`controls, this`rules, this`values, this`considered, this`customRuleKeys, this`customAsyncRuleKeys, this`valid, this`renders
      ensures Valid()
      ensures State() == RemoveAll(old(State()), names)
    {
      ghost var g := State();
      for i := 0 to |names|
        invariant Valid()
        invariant State() == RemoveAll(g, names[..i])
      {
        RemoveAllStep(g, names, i);
        RemoveControl(names[i]);
      }
      assert names[..|names|] == names;
    }

    /** `constructor(controls)`: an empty group to which the controls are
        added as by `addControls`. */
    constructor(names: seq<string>, incoming: map<string, FormControl>, eval: SyncEvaluator)
      requires NewControls(names, incoming, map[])
      modifies incoming.Values
      ensures Valid()
      ensures State() == GroupSpec.AddControls(Initial, names, old(ViewsOf(incoming)), old(ItemsOf(incoming)), eval)
    {
      controls := map[];
      considered := [];
      rules := map[];
      customRuleKeys := [];
      customAsyncRuleKeys := [];
      values := map[];
      valid := true;
      renderCallback := None;
      renders := [];
      new;
      ViewsUnchanged(incoming);
      ItemsUnchanged(incoming);
      ValidFrom(Initial);
      AddMultipleControls(names, incoming, eval);
    }

    /** `addControls(controls)` */
    method AddControls(names: seq<string>, incoming: map<string, FormControl>, eval: SyncEvaluator)
      requires Valid() && NewControls(names, incoming, controls)
      modifies this`controls, this`values, this`rules, this`considered, this`customRuleKeys, this`customAsyncRuleKeys, this`valid, this`renders, incoming.Values
      ensures Valid()
      ensures State() == GroupSpec.AddControls(old(State()), names, old(ViewsOf(incoming)), old(ItemsOf(incoming)), eval)
    {
      AddMultipleControls(names, incoming, eval);
    }

    /** `_addMultipleControls(controls)`, for the controls `incoming` whose
        keys, in order, are `names`. */
    method AddMultipleControls(names: seq<string>, incoming: map<string, FormControl>, eval: SyncEvaluator)
      requires Valid() && NewControls(names, incoming, controls)
      modifies this`controls, this`values, this`rules, this`considered, this`customRuleKeys, this`customAsyncRuleKeys, this`valid, this`renders, incoming.Values
      ensures Valid()
      ensures State() == GroupSpec.AddControls(old(State()), names, old(ViewsOf(incoming)), old(ItemsOf(incoming)), eval)
    {
      ghost var g := State();
      ghost var views := ViewsOf(incoming);
      ghost var items := ItemsOf(incoming);
      RecordAndRevalidate(names, incoming, eval);
      AddControlsKeepsWellFormed(g, names, views, items, eval);
      ValidFrom(GroupSpec.AddControls(g, names, views, items, eval));
    }

    /** The two steps of `_addMultipleControls(controls)`. */
    method RecordAndRevalidate(names: seq<string>, incoming: map<string, FormControl>, eval: SyncEvaluator)
      requires NewControls(names, incoming, controls) && Injective(controls)
      requires forall k :: k in considered ==> k in controls
      modifies this`controls, this`values, this`rules, this`considered, this`customRuleKeys, this`customAsyncRuleKeys, this`valid, this`renders, incoming.Values
      ensures State() == GroupSpec.AddControls(old(State()), names, old(ViewsOf(incoming)), old(ItemsOf(incoming)), eval)
      ensures Injective(controls)
    {
      var newValues, newRules := RecordControls(names, incoming);
      ghost var recorded := controls;
      assert (set k | k in names :: controls[k]) <= incoming.Values by {
        forall k | k in names ensures controls[k] == incoming[k] {
          assert Picked(names, incoming)[k] == incoming[k];
        }
      }
      SyncRevalidate(names, newValues, newRules, eval);
      assert controls == recorded;
    }

    /** `_addMultipleControls` up to the revalidation, seen through the group's
        state: the names are appended to `considered`, then every new control is
        recorded with its fields, value and rules, and listed as its rules say;
        the group stays injective. Returns the new controls' values and rules. */
    method RecordControls(names: seq<string>, incoming: map<string, FormControl>) returns (newValues: Values, newRules: FormRules)
      requires NewControls(names, incoming, controls)
      requires Injective(controls)
      modifies this`considered, this`controls, this`values, this`rules, this`customRuleKeys, this`customAsyncRuleKeys
      ensures State() == AddEach(old(State()).(considered := old(considered) + names), names, old(ViewsOf(incoming)), old(ItemsOf(incoming)))
      ensures newValues == NewValues(names, old(ViewsOf(incoming))) && newRules == NewRules(names, old(ItemsOf(incoming)))
      ensures Injective(controls)
      ensures controls == old(controls) + Picked(names, incoming)
    {
      Consider(names);
      ViewsUnchanged(incoming);
      ItemsUnchanged(incoming);
      newValues, newRules := RecordAll(names, incoming);
    }

    /** The loop of `_addMultipleControls`, seen through the group's state. */
    method RecordAll(names: seq<string>, incoming: map<string, FormControl>) returns (newValues: Values, newRules: FormRules)
      requires NewControls(names, incoming, controls)
      requires Injective(controls)
      modifies this`controls, this`values, this`rules, this`customRuleKeys, this`customAsyncRuleKeys
      ensures State() == AddEach(old(State()), names, old(ViewsOf(incoming)), old(ItemsOf(incoming)))
      ensures newValues == NewValues(names, old(ViewsOf(incoming))) && newRules == NewRules(names, old(ItemsOf(incoming)))
      ensures Injective(controls)
      ensures controls == old(controls) + Picked(names, incoming)
    {
      ghost var before := controls;
      newValues, newRules := RecordEach(names, incoming);
      ViewsOfUnion(before, Picked(names, incoming));
      ViewsOfPicked(names, incoming);
      ViewsUnchanged(before);
      ViewsUnchanged(incoming);
      UnionInjective(before, names, incoming);
    }

    /** `this.considered = [...this.considered, ...controlNames]` */
    method Consider(names: seq<string>)
      modifies this`considered
      ensures State() == old(State()).(considered := old(considered) + names)
    {
      ghost var fields := ViewsOf(controls);
      considered := considered + names;
      assert ViewsOf(controls) == fields;
    }

    /** The loop of `_addMultipleControls`: each new control is stored with its
        value; its serialized rules go into a copy of the rules that replaces
        them at the end; its name is listed as custom or asynchronous as its
        rules say. */
    method RecordEach(names: seq<string>, incoming: map<string, FormControl>) returns (newValues: Values, newRules: FormRules)
      requires forall k :: k in names ==> k in incoming
      modifies this`controls, this`values, this`rules, this`customRuleKeys, this`customAsyncRuleKeys
      ensures Tally(controls, values, rules, customRuleKeys, customAsyncRuleKeys, newValues, newRules)
           == Tallied(old(Tally(controls, values, rules, customRuleKeys, customAsyncRuleKeys, map[], map[])), names, incoming, old(ViewsOf(incoming)), old(ItemsOf(incoming)))
    {
      ghost var start := Tally(controls, values, rules, customRuleKeys, customAsyncRuleKeys, map[], map[]);
      ghost var views := ViewsOf(incoming);
      ghost var items := ItemsOf(incoming);
      newValues := map[];
      newRules := map[];
      var updateRules := rules;
      TalliedNone(start, names, incoming, views, items);
      for i := 0 to |names|
        invariant Tally(controls, values, updateRules, customRuleKeys, customAsyncRuleKeys, newValues, newRules) == Tallied(start, names[..i], incoming, views, items)
      {
        var key := names[i];
        var control := incoming[key];
        assert control.value == views[key].value && control.rules.rules == items[key];
        TalliedStep(start, names, i, incoming, views, items);
        updateRules, newValues, newRules := RecordControl(key, control, updateRules, newValues, newRules);
      }
      assert names[..|names|] == names;
      rules := updateRules;
    }

    /** One iteration of the loop of `_addMultipleControls`: the control and
        its value are stored, its serialized rules go into the copy
        `updateRules` of the rules and into `newRules`, its value into
        `newValues`, and its name is listed as its rules say. */
    method RecordControl(key: string, control: FormControl, updateRules: FormRules, newValues: Values, newRules: FormRules)
      returns (updateRules': FormRules, newValues': Values, newRules': FormRules)
      modifies this`controls, this`values, this`customRuleKeys, this`customAsyncRuleKeys
      ensures Tally(controls, values, updateRules', customRuleKeys, customAsyncRuleKeys, newValues', newRules')
           == TallyOne(old(Tally(controls, values, updateRules, customRuleKeys, customAsyncRuleKeys, newValues, newRules)), key, control, control.value, control.rules.rules)
    {
      controls := controls[key := control];
      values := values[key := control.GetValue()];
      newValues' := newValues[key := control.GetValue()];
      var controlRules := control.GetRules().Serialize();
      OnlyCustomIsSoleKey(controlRules);
      if controlRules.custom.Some? && |Keys(controlRules)| == 1 {
        customRuleKeys := customRuleKeys + [key];
      }
      if controlRules.customAsync.Some? {
        customAsyncRuleKeys := customAsyncRuleKeys + [key];
      }
      newRules' := newRules[key := controlRules];
      updateRules' := updateRules[key := controlRules];
    }
  }
}

=== FILE: GroupSpec.dfy ===
/** The form group of src/FormGroup.ts seen as a value: its controls (through
    their fields), the bookkeeping lists, the current values and rules, the
    validity flag and the render log. One function per operation says what the
    operation does to that value; the class in module `Group` is proved to
    perform exactly these transitions. */
module GroupSpec {
  import opened Wrappers
  import opened Js
  import opened Rules
  import opened Control

  /** control name -> value; `None` is `null`. */
  type Values = map<string, Option<string>>
  /** validate.js "grouped" errors: attribute -> messages. */
  type ErrorMap = map<string, seq<string>>
  /** control name -> serialized rule record. */
  type FormRules = map<string, RuleItem>

  /** `validate(values, rules, options)` with `syncValidateOnly` set: the error
      object, or `undefined` (`None`) when every rule passes. */
  type SyncEvaluator = (Values, FormRules) -> Option<ErrorMap>

  /** How the promise of `validate.async(values, rules, options)` settles. */
  datatype AsyncOutcome =
    | Resolved                    // no rule failed
    | Cancelled                   // a newer validation of the field rejected this one (the reset indicator)
    | Rejected(errors: ErrorMap)  // some rule failed
    | Thrown                      // the rejection was an `Error`; it is rethrown

  type AsyncEvaluator = (Values, FormRules) -> AsyncOutcome

  /** `errors[key] || []` */
  function ErrorsFor(errors: ErrorMap, key: string): seq<string> {
    if key in errors then errors[key] else []
  }

  /** The part of a DOM element or plain object the `validate` handler reads;
      an absent `target` has every part absent. */
  datatype EventTarget = EventTarget(
    name: Option<string>,
    value: Option<string>,
    kind: Option<string>,                 // `type`
    checked: bool,
    dataValidateControl: Option<string>,  // `data-validate-control`
    validateControl: Option<string>)      // `validate-control`

  datatype GroupState = GroupState(
    fields: map<string, FieldView>,       // `controls`, seen through their fields
    considered: seq<string>,
    rules: FormRules,
    customRuleKeys: seq<string>,
    customAsyncRuleKeys: seq<string>,
    values: Values,                       // `_values`
    valid: bool,                          // `_valid`
    renderCallback: Option<FunctionToken>,
    renders: seq<bool>)                   // the `valid` argument of every render callback call, oldest first

  /** A group with no controls. */
  const Initial := GroupState(map[], [], map[], [], [], map[], true, None, [])

  /** What every operation maintains: the considered names are exactly the
      controls, and each has rules and a value; the value map mirrors the
      controls' values; the two key lists name known controls; every control
      whose rules are a lone `custom` rule is listed as custom, and every control
      with an asynchronous rule is listed as asynchronous. */
  ghost predicate WellFormed(g: GroupState) {
    (forall k :: k in g.fields <==> k in g.considered)
    && g.rules.Keys == g.fields.Keys
    && g.values.Keys == g.fields.Keys
    && (forall k :: k in g.fields ==> g.values[k] == g.fields[k].value)
    && (forall k :: k in g.customRuleKeys ==> k in g.fields)
    && (forall k :: k in g.customAsyncRuleKeys ==> k in g.fields)
    && (forall k :: k in g.rules && OnlyCustom(g.rules[k]) ==> k in g.customRuleKeys)
    && (forall k :: k in g.rules && g.rules[k].customAsync.Some? ==> k in g.customAsyncRuleKeys)
  }

  /** Only the controls' fields, the validity flag and the render log may differ. */
  ghost predicate SameBookkeeping(g: GroupState, r: GroupState) {
    r.fields.Keys == g.fields.Keys
    && r.considered == g.considered && r.rules == g.rules && r.values == g.values
    && r.customRuleKeys == g.customRuleKeys && r.customAsyncRuleKeys == g.customAsyncRuleKeys
    && r.renderCallback == g.renderCallback
  }

  lemma SameBookkeepingWellFormed(g: GroupState, r: GroupState)
    requires WellFormed(g) && SameBookkeeping(g, r)
    requires forall k :: k in r.fields ==> r.fields[k].value == g.fields[k].value
    ensures WellFormed(r)
  {
  }

  // ---------------------------------------------------------------------------
  // Edits of single controls

  /** The setter chains the group applies to a control. */
  datatype Edit =
    | SetTouched(touched: bool)     // setTouched(touched)
    | Clear                         // setErrors([]).setLoading(false).setTouched(false)
    | Errors(found: ErrorMap)       // setErrors(found[key] || [])
    | TouchErrors(found: ErrorMap)  // setTouched(true).setErrors(found[key] || [])
    | Loading(loading: bool)        // setLoading(loading)
    | Assign(incoming: Values)      // setValue(incoming[key]) when the key is given

  function Apply(e: Edit, key: string, v: FieldView): FieldView {
    match e
    case SetTouched(t) => v.(touched := t)
    case Clear => v.(errors := [], loading := false, touched := false)
    case Errors(found) => v.(errors := ErrorsFor(found, key))
    case TouchErrors(found) => v.(touched := true, errors := ErrorsFor(found, key))
    case Loading(l) => v.(loading := l)
    case Assign(incoming) => if key in incoming then v.(value := incoming[key]) else v
  }

  /** `this.controls[key].<edit>` (a missing control is left alone). */
  function EditAt(fields: map<string, FieldView>, key: string, e: Edit): map<string, FieldView> {
    if key in fields then fields[key := Apply(e, key, fields[key])] else fields
  }

  /** Assigning values that do not name the control changes nothing. */
  lemma AssignAbsent(fields: map<string, FieldView>, key: string, incoming: Values)
    requires key !in incoming
    ensures EditAt(fields, key, Assign(incoming)) == fields
  {
  }

  /** `for (const key of keys) this.controls[key].<edit>`: a name listed twice is
      edited twice, which changes nothing because every edit is idempotent. */
  function EditEach(fields: map<string, FieldView>, keys: seq<string>, e: Edit): (r: map<string, FieldView>)
    ensures r.Keys == fields.Keys
    ensures forall k :: k in r ==> r[k] == if k in keys then Apply(e, k, fields[k]) else fields[k]
    decreases |keys|
  {
    if keys == [] then fields
    else
      var prefix := keys[..|keys| - 1];
      var last := keys[|keys| - 1];
      assert forall k :: k in keys <==> k in prefix || k == last by {
        assert keys == prefix + [last];
      }
      var before := EditEach(fields, prefix, e);
      var r := EditAt(before, last, e);
      assert forall k :: k in r ==> r[k] == if k in keys then Apply(e, k, fields[k]) else fields[k] by {
        forall k | k in r
          ensures r[k] == if k in keys then Apply(e, k, fields[k]) else fields[k]
        {
          if k == last {
            ApplyIdempotent(e, k, fields[k]);
          }
        }
      }
      r
  }

  /** One more step of the loop that `EditEach` stands for. */
  lemma EditEachStep(fields: map<string, FieldView>, keys: seq<string>, i: nat, e: Edit)
    requires i < |keys|
    ensures EditEach(fields, keys[..i + 1], e) == EditAt(EditEach(fields, keys[..i], e), keys[i], e)
  {
    assert keys[..i + 1][..i] == keys[..i];
  }

  /** `setValue(value)` through `updateControlValue` is the `Assign` edit. */
  lemma AssignOne(fields: map<string, FieldView>, key: string, incoming: Values)
    requires key in incoming
    ensures EditAt(fields, key, Assign(map[key := incoming[key]])) == EditAt(fields, key, Assign(incoming))
  {
  }

  lemma ApplyIdempotent(e: Edit, key: string, v: FieldView)
    ensures Apply(e, key, Apply(e, key, v)) == Apply(e, key, v)
  {
  }

  /** `list.filter(item => item !== x)` */
  function Without(s: seq<string>, x: string): (r: seq<string>)
    ensures forall y :: y in r <==> y in s && y != x
    ensures |r| <= |s|
  {
    if s == [] then []
    else (if s[0] == x then [] else [s[0]]) + Without(s[1..], x)
  }

  // ---------------------------------------------------------------------------
  // Validity and rendering

  /** A control blocks validity when it has an error or is loading. */
  predicate Blocking(v: FieldView) {
    v.errors != [] || v.loading
  }

  /** `callRender`: the callback, when one is installed, is called with the
      current validity. */
  function Render(g: GroupState): (r: GroupState)
    ensures r.(renders := g.renders) == g
    ensures |r.renders| == |g.renders| + (if g.renderCallback.Some? then 1 else 0)
    ensures r.renders[..|g.renders|] == g.renders
    ensures g.renderCallback.Some? ==> r.renders[|g.renders|] == g.valid
  {
    if g.renderCallback.Some? then g.(renders := g.renders + [g.valid]) else g
  }

  /** `updateValidState`: valid exactly when no considered control has an error
      or is loading; the form renders only when it becomes valid. */
  function UpdateValidState(g: GroupState): (r: GroupState)
    ensures r.valid <==> forall k :: k in g.considered && k in g.fields ==> !Blocking(g.fields[k])
    ensures r.(valid := g.valid, renders := g.renders) == g
    ensures r.renders == g.renders + (if r.valid && g.renderCallback.Some? then [true] else [])
  {
    if forall i :: 0 <= i < |g.considered| && g.considered[i] in g.fields ==> !Blocking(g.fields[g.considered[i]])
    then Render(g.(valid := true))
    else g.(valid := false)
  }

  /** The validity flag never claims validity while a considered control has
      an error or a pending check (it may claim invalidity: `reset` does). */
  ghost predicate HonestValidity(g: GroupState) {
    g.valid ==> forall k :: k in g.considered && k in g.fields ==> !Blocking(g.fields[k])
  }

  // ---------------------------------------------------------------------------
  // Touching and resetting

  /** `touch(name)`: marks one control touched and renders; an unknown name is
      the `TypeError` of reading `setTouched` from `undefined` (`None`). */
  function Touch(g: GroupState, name: string): (r: Option<GroupState>)
    ensures r.None? <==> name !in g.fields
    ensures r.Some? ==> SameBookkeeping(g, r.value) && r.value.valid == g.valid
    ensures r.Some? ==> r.value.fields == g.fields[name := g.fields[name].(touched := true)]
    ensures r.Some? ==> r.value.renders == g.renders + (if g.renderCallback.Some? then [g.valid] else [])
  {
    if name in g.fields then Some(Render(g.(fields := EditAt(g.fields, name, SetTouched(true))))) else None
  }

  /** `touchAll` / `unTouchAll`: every considered control gets the same
      `touched` flag, nothing else about it changes, and the form renders. */
  function ToggleTouched(g: GroupState, touched: bool): (r: GroupState)
    ensures SameBookkeeping(g, r) && r.valid == g.valid
    ensures forall k :: k in g.considered && k in g.fields ==> r.fields[k] == g.fields[k].(touched := touched)
    ensures forall k :: k in g.fields && k !in g.considered ==> r.fields[k] == g.fields[k]
    ensures r.renders == g.renders + (if g.renderCallback.Some? then [g.valid] else [])
  {
    var r := Render(g.(fields := EditEach(g.fields, g.considered, SetTouched(touched))));
    r
  }

  /** `reset`: every considered control is untouched, without errors and not
      loading; the form is then marked INVALID and renders. */
  function Reset(g: GroupState): (r: GroupState)
    ensures SameBookkeeping(g, r) && !r.valid
    ensures forall k :: k in g.considered && k in g.fields ==>
      var v := r.fields[k];
      !v.touched && v.errors == [] && !v.loading && v.value == g.fields[k].value && v.name == g.fields[k].name
    ensures forall k :: k in g.fields && k !in g.considered ==> r.fields[k] == g.fields[k]
    ensures r.renders == g.renders + (if g.renderCallback.Some? then [false] else [])
  {
    var r := Render(g.(fields := EditEach(g.fields, g.considered, Clear), valid := false));
    r
  }

  // ---------------------------------------------------------------------------
  // Values and synchronous revalidation

  /** `updateControlValue(name, value)`: the value map gets the new value and so
      does the control. */
  function UpdateControlValue(g: GroupState, name: string, value: Option<string>): (r: GroupState)
    ensures r.values == g.values[name := value]
    ensures r.fields.Keys == g.fields.Keys
    ensures forall k :: k in r.fields ==> r.fields[k] == if k == name then g.fields[k].(value := value) else g.fields[k]
    ensures r.(values := g.values, fields := g.fields) == g
  {
    g.(values := g.values[name := value], fields := EditAt(g.fields, name, Assign(map[name := value])))
  }

  /** The value map after `updateControlValue(key, incoming[key])` for each listed
      key that `incoming` defines. */
  function AssignValues(values: Values, keys: seq<string>, incoming: Values): (r: Values)
    ensures forall k :: k in r <==> k in values || (k in keys && k in incoming)
    ensures forall k :: k in r ==> r[k] == if k in keys && k in incoming then incoming[k] else values[k]
    decreases |keys|
  {
    if keys == [] then values
    else
      var prefix := keys[..|keys| - 1];
      var last := keys[|keys| - 1];
      assert forall k :: k in keys <==> k in prefix || k == last by {
        assert keys == prefix + [last];
      }
      var before := AssignValues(values, prefix, incoming);
      if last in incoming then before[last := incoming[last]] else before
  }

  /** One more step of the loop that `AssignValues` stands for. */
  lemma AssignValuesStep(values: Values, keys: seq<string>, i: nat, incoming: Values)
    requires i < |keys|
    ensures keys[i] in incoming ==>
      AssignValues(values, keys[..i + 1], incoming) == AssignValues(values, keys[..i], incoming)[keys[i] := incoming[keys[i]]]
    ensures keys[i] !in incoming ==> AssignValues(values, keys[..i + 1], incoming) == AssignValues(values, keys[..i], incoming)
  {
    assert keys[..i + 1][..i] == keys[..i];
  }

  /** `_syncRevalidate(keys, values, rules)`: the listed controls get exactly the
      messages the synchronous evaluator reports for them (none when it reports
      `undefined`), then validity is recomputed. */
  function SyncRevalidate(g: GroupState, keys: seq<string>, values: Values, rules: FormRules, eval: SyncEvaluator): (r: GroupState)
    ensures SameBookkeeping(g, r)
    ensures forall k :: k in keys && k in g.fields ==>
      r.fields[k] == g.fields[k].(errors := if eval(values, rules).Some? then ErrorsFor(eval(values, rules).value, k) else [])
    ensures forall k :: k in g.fields && k !in keys ==> r.fields[k] == g.fields[k]
    ensures r.valid <==> forall k :: k in g.considered && k in r.fields ==> !Blocking(r.fields[k])
    ensures r.renders == g.renders + (if r.valid && g.renderCallback.Some? then [true] else [])
  {
    var errors := eval(values, rules).GetOr(map[]);
    var g1 := g.(fields := EditEach(g.fields, keys, Errors(errors)));
    var r := UpdateValidState(g1);
    r
  }

  /** The loop of `updateValues(incoming)`: every considered control for which
      `incoming` defines a value takes it, in the value map and in the control. */
  function AssignConsidered(g: GroupState, incoming: Values): (r: GroupState)
    ensures r.(values := g.values, fields := g.fields) == g
    ensures r.fields.Keys == g.fields.Keys
    ensures forall k :: k in g.fields ==>
      r.fields[k] == if k in g.considered && k in incoming then g.fields[k].(value := incoming[k]) else g.fields[k]
  {
    var r := g.(values := AssignValues(g.values, g.considered, incoming),
                fields := EditEach(g.fields, g.considered, Assign(incoming)));
    r
  }

  lemma AssignConsideredKeepsWellFormed(g: GroupState, incoming: Values, r: GroupState)
    requires WellFormed(g)
    requires r == g.(values := AssignValues(g.values, g.considered, incoming),
                     fields := EditEach(g.fields, g.considered, Assign(incoming)))
    ensures r.values.Keys == g.values.Keys
    ensures forall k :: k in g.values ==> r.values[k] == if k in incoming then incoming[k] else g.values[k]
    ensures WellFormed(r)
  {
    AssignInStep(g.values, g.fields, g.considered, incoming);
    ValuesFollowFields(g, r);
  }

  /** Assigning the same incoming values to a value map and to the controls it
      mirrors, for keys they both have, keeps them mirrored. */
  lemma AssignInStep(values: Values, fields: map<string, FieldView>, keys: seq<string>, incoming: Values)
    requires values.Keys == fields.Keys
    requires forall k :: k in keys <==> k in fields
    requires forall k :: k in fields ==> values[k] == fields[k].value
    ensures AssignValues(values, keys, incoming).Keys == values.Keys
    ensures forall k :: k in values ==> AssignValues(values, keys, incoming)[k] == if k in incoming then incoming[k] else values[k]
    ensures forall k :: k in fields ==> AssignValues(values, keys, incoming)[k] == EditEach(fields, keys, Assign(incoming))[k].value
  {
  }

  /** Changing values in step with the controls keeps a group well formed. */
  lemma ValuesFollowFields(g: GroupState, r: GroupState)
    requires WellFormed(g)
    requires r.(values := g.values, fields := g.fields, valid := g.valid, renders := g.renders) == g
    requires r.fields.Keys == g.fields.Keys && r.values.Keys == g.values.Keys
    requires forall k :: k in r.fields ==> r.values[k] == r.fields[k].value
    ensures WellFormed(r)
  {
  }

  /** `updateValues(incoming)`: the given values are taken over, then every
      considered control is revalidated against all values and all rules. */
  function UpdateValues(g: GroupState, incoming: Values, eval: SyncEvaluator): (r: GroupState)
    ensures r.considered == g.considered && r.rules == g.rules && r.fields.Keys == g.fields.Keys
    ensures r.customRuleKeys == g.customRuleKeys && r.customAsyncRuleKeys == g.customAsyncRuleKeys
    ensures r.renderCallback == g.renderCallback
    ensures forall k :: k in g.considered && k in g.fields ==>
      r.fields[k].errors == (if eval(r.values, g.rules).Some? then ErrorsFor(eval(r.values, g.rules).value, k) else [])
    ensures forall k :: k in g.considered && k in g.fields ==>
      var v, u := r.fields[k], g.fields[k];
      v.touched == u.touched && v.loading == u.loading && v.name == u.name
      && v.value == (if k in incoming then incoming[k] else u.value)
    ensures forall k :: k in g.fields && k !in g.considered ==> r.fields[k] == g.fields[k]
    ensures r.valid <==> forall k :: k in r.considered && k in r.fields ==> !Blocking(r.fields[k])
    ensures r.renders == g.renders + (if r.valid && g.renderCallback.Some? then [true] else [])
  {
    var g1 := AssignConsidered(g, incoming);
    SyncRevalidate(g1, g1.considered, g1.values, g1.rules, eval)
  }

  // ---------------------------------------------------------------------------
  // Removing controls

  /** One iteration of `removeControls`: a name that is not considered is
      skipped; otherwise every trace of it goes and validity is recomputed. */
  function RemoveOne(g: GroupState, name: string): (r: GroupState)
    ensures name !in g.considered ==> r == g
    ensures name in g.considered ==>
      name !in r.fields && name !in r.considered && name !in r.rules && name !in r.values
      && name !in r.customRuleKeys && name !in r.customAsyncRuleKeys
    ensures forall k :: k != name ==> (k in r.fields <==> k in g.fields) && (k in r.considered <==> k in g.considered)
    ensures forall k :: k != name && k in g.fields ==> r.fields[k] == g.fields[k]
    ensures forall k :: k != name && k in g.rules ==> k in r.rules && r.rules[k] == g.rules[k]
    ensures forall k :: k != name && k in g.values ==> k in r.values && r.values[k] == g.values[k]
    ensures r.fields.Keys <= g.fields.Keys && r.rules.Keys <= g.rules.Keys && r.values.Keys <= g.values.Keys
    ensures forall k :: k != name ==>
      (k in r.customRuleKeys <==> k in g.customRuleKeys) && (k in r.customAsyncRuleKeys <==> k in g.customAsyncRuleKeys)
    ensures r.renderCallback == g.renderCallback
    ensures name in g.considered ==> (r.valid <==> forall k :: k in r.considered && k in r.fields ==> !Blocking(r.fields[k]))
    ensures r.renders == g.renders + (if name in g.considered && r.valid && g.renderCallback.Some? then [true] else [])
  {
    if name !in g.considered then g
    else
      UpdateValidState(Forget(g, name))
  }

  /** The deletions and filters of one iteration of `removeControls`. */
  function Forget(g: GroupState, name: string): (r: GroupState)
    ensures name !in r.fields && name !in r.considered && name !in r.rules && name !in r.values
    ensures name !in r.customRuleKeys && name !in r.customAsyncRuleKeys
  {
    g.(rules := g.rules - {name},
       fields := g.fields - {name},
       values := g.values - {name},
       considered := Without(g.considered, name),
       customRuleKeys := Without(g.customRuleKeys, name),
       customAsyncRuleKeys := Without(g.customAsyncRuleKeys, name))
  }

  /** One more step of the loop that `RemoveAll` stands for. */
  lemma RemoveAllStep(g: GroupState, names: seq<string>, i: nat)
    requires i < |names|
    ensures RemoveAll(g, names[..i + 1]) == RemoveOne(RemoveAll(g, names[..i]), names[i])
  {
    assert names[..i + 1][..i] == names[..i];
  }

  /** `removeControls(...names)`: the names are processed left to right. In a
      well-formed group, afterwards no listed name is left anywhere, and every
      other control is still there, unchanged, with its rules and value. */
  function RemoveAll(g: GroupState, names: seq<string>): (r: GroupState)
    ensures forall k :: k in names ==> k !in r.considered
    ensures forall k :: k in names && k in g.considered ==> k !in r.fields && k !in r.rules && k !in r.values
    ensures r.fields.Keys <= g.fields.Keys && r.rules.Keys <= g.rules.Keys && r.values.Keys <= g.values.Keys
    ensures forall k :: k !in names ==> (k in r.fields <==> k in g.fields) && (k in r.considered <==> k in g.considered)
    ensures forall k :: k !in names && k in g.fields ==> r.fields[k] == g.fields[k]
    ensures forall k :: k !in names && k in g.rules ==> k in r.rules && r.rules[k] == g.rules[k]
    ensures forall k :: k !in names && k in g.values ==> k in r.values && r.values[k] == g.values[k]
    decreases |names|
  {
    if names == [] then g
    else
      var prefix := names[..|names| - 1];
      var last := names[|names| - 1];
      assert forall k :: k in names <==> k in prefix || k == last by {
        assert names == prefix + [last];
      }
      var before := RemoveAll(g, prefix);
      var r := RemoveOne(before, last);
      r
  }

  /** After `removeControls(...names)` the two key lists have lost exactly the
      removed names, and a group none of whose names is considered is left as
      it was. */
  lemma {:induction false} RemoveAllLists(g: GroupState, names: seq<string>)
    ensures var r := RemoveAll(g, names);
      && (forall k :: k !in names ==>
            (k in r.customRuleKeys <==> k in g.customRuleKeys) && (k in r.customAsyncRuleKeys <==> k in g.customAsyncRuleKeys))
      && (forall k :: k in names && k in g.considered ==> k !in r.customRuleKeys && k !in r.customAsyncRuleKeys)
      && ((forall k :: k in names ==> k !in g.considered) ==> r == g)
    decreases |names|
  {
    if names != [] {
      var prefix, last := names[..|names| - 1], names[|names| - 1];
      assert names == prefix + [last];
      RemoveAllLists(g, prefix);
    }
  }

  /** After `removeControls(...names)` removed at least one control, validity
      has been recomputed over the controls that are left: the last removal's
      `updateValidState` decides it. */
  lemma {:induction false} RemoveAllRevalidates(g: GroupState, names: seq<string>)
    requires exists k :: k in names && k in g.considered
    ensures var r := RemoveAll(g, names);
      r.valid <==> forall k :: k in r.considered && k in r.fields ==> !Blocking(r.fields[k])
    decreases |names|
  {
    var prefix, last := names[..|names| - 1], names[|names| - 1];
    assert names == prefix + [last];
    var before := RemoveAll(g, prefix);
    if last !in before.considered {
      assert exists k :: k in prefix && k in g.considered;
      RemoveAllRevalidates(g, prefix);
    }
  }

  /** `removeControls(...names)` keeps the render callback, only appends to the
      render log, and every render it adds reports a valid form (each comes from
      an `updateValidState` that found the form valid). */
  lemma {:induction false} RemoveAllRenders(g: GroupState, names: seq<string>)
    ensures var r := RemoveAll(g, names);
      && r.renderCallback == g.renderCallback
      && |g.renders| <= |r.renders| && r.renders[..|g.renders|] == g.renders
      && (forall i :: |g.renders| <= i < |r.renders| ==> r.renders[i])
      && (g.renderCallback.None? ==> r.renders == g.renders)
    decreases |names|
  {
    if names != [] {
      RemoveAllRenders(g, names[..|names| - 1]);
    }
  }

  // ---------------------------------------------------------------------------
  // Adding controls

  /** One iteration of the loop of `_addMultipleControls`: the control, its
      value and its serialized rules are recorded, and the name is listed as
      custom when its rules are a lone `custom` rule and as asynchronous when
      they have a `customAsync` rule. */
  function AddOne(g: GroupState, key: string, view: FieldView, item: RuleItem): GroupState {
    g.(fields := g.fields[key := view],
       values := g.values[key := view.value],
       rules := g.rules[key := item],
       customRuleKeys := g.customRuleKeys + (if OnlyCustom(item) then [key] else []),
       customAsyncRuleKeys := g.customAsyncRuleKeys + (if item.customAsync.Some? then [key] else []))
  }

  /** The whole loop of `_addMultipleControls`, in closed form: the new
      controls' fields, values and rules are merged in (a later name wins over
      an earlier control of the same name), and the custom and asynchronous
      names are appended in the order of `names`. */
  function AddEach(g: GroupState, names: seq<string>, views: map<string, FieldView>, items: map<string, RuleItem>): GroupState {
    g.(fields := g.fields + NewViews(names, views),
       values := g.values + NewValues(names, views),
       rules := g.rules + NewRules(names, items),
       customRuleKeys := g.customRuleKeys + CustomNames(names, items),
       customAsyncRuleKeys := g.customAsyncRuleKeys + AsyncNames(names, items))
  }

  /** The closed form is the loop: one more name is one more `AddOne`. */
  lemma AddEachStep(g: GroupState, names: seq<string>, i: nat, views: map<string, FieldView>, items: map<string, RuleItem>)
    requires i < |names| && names[i] in views && names[i] in items
    ensures AddEach(g, names[..i + 1], views, items) == AddOne(AddEach(g, names[..i], views, items), names[i], views[names[i]], items[names[i]])
  {
    var key := names[i];
    NewMapsStep(names, i, views, items);
    NamesStep(names, i, items);
    UnionUpdate(g.fields, NewViews(names[..i], views), key, views[key]);
    UnionUpdate(g.values, NewValues(names[..i], views), key, views[key].value);
    UnionUpdate(g.rules, NewRules(names[..i], items), key, items[key]);
  }

  /** What the loop establishes, as the relation `Added`. */
  lemma AddEachAdded(g: GroupState, names: seq<string>, views: map<string, FieldView>, items: map<string, RuleItem>)
    requires forall k :: k in names ==> k in views && k in items
    ensures Added(g, AddEach(g.(considered := g.considered + names), names, views, items), names, views, items)
  {
    CustomNamesMembers(names, items);
    AsyncNamesMembers(names, items);
  }

  /** The names whose rules are a lone `custom` rule, in order. */
  function CustomNames(names: seq<string>, items: map<string, RuleItem>): seq<string>
    decreases |names|
  {
    if names == [] then []
    else
      var last := names[|names| - 1];
      CustomNames(names[..|names| - 1], items) + (if last in items && OnlyCustom(items[last]) then [last] else [])
  }

  /** The names whose rules have a `customAsync` rule, in order. */
  function AsyncNames(names: seq<string>, items: map<string, RuleItem>): seq<string>
    decreases |names|
  {
    if names == [] then []
    else
      var last := names[|names| - 1];
      AsyncNames(names[..|names| - 1], items) + (if last in items && items[last].customAsync.Some? then [last] else [])
  }

  lemma {:induction false} CustomNamesMembers(names: seq<string>, items: map<string, RuleItem>)
    ensures forall k :: k in CustomNames(names, items) <==> k in names && k in items && OnlyCustom(items[k])
    decreases |names|
  {
    if names != [] {
      var prefix := names[..|names| - 1];
      assert names == prefix + [names[|names| - 1]];
      CustomNamesMembers(prefix, items);
    }
  }

  lemma {:induction false} AsyncNamesMembers(names: seq<string>, items: map<string, RuleItem>)
    ensures forall k :: k in AsyncNames(names, items) <==> k in names && k in items && items[k].customAsync.Some?
    decreases |names|
  {
    if names != [] {
      var prefix := names[..|names| - 1];
      assert names == prefix + [names[|names| - 1]];
      AsyncNamesMembers(prefix, items);
    }
  }

  /** The new controls' fields. */
  function NewViews(names: seq<string>, views: map<string, FieldView>): map<string, FieldView> {
    map k | k in names && k in views :: views[k]
  }

  /** `newControlValues` */
  function NewValues(names: seq<string>, views: map<string, FieldView>): Values {
    map k | k in names && k in views :: views[k].value
  }

  /** `newRules` */
  function NewRules(names: seq<string>, items: map<string, RuleItem>): FormRules {
    map k | k in names && k in items :: items[k]
  }

  /** One more step of the loop that `AddEach` stands for: the new maps. */
  lemma NewMapsStep(names: seq<string>, i: nat, views: map<string, FieldView>, items: map<string, RuleItem>)
    requires i < |names| && names[i] in views && names[i] in items
    ensures NewViews(names[..i + 1], views) == NewViews(names[..i], views)[names[i] := views[names[i]]]
    ensures NewValues(names[..i + 1], views) == NewValues(names[..i], views)[names[i] := views[names[i]].value]
    ensures NewRules(names[..i + 1], items) == NewRules(names[..i], items)[names[i] := items[names[i]]]
  {
    assert forall k :: k in names[..i + 1] <==> k in names[..i] || k == names[i] by {
      assert names[..i + 1] == names[..i] + [names[i]];
    }
  }

  /** One more step of the loop that `AddEach` stands for: the two lists. */
  lemma NamesStep(names: seq<string>, i: nat, items: map<string, RuleItem>)
    requires i < |names| && names[i] in items
    ensures CustomNames(names[..i + 1], items) == CustomNames(names[..i], items) + (if OnlyCustom(items[names[i]]) then [names[i]] else [])
    ensures AsyncNames(names[..i + 1], items) == AsyncNames(names[..i], items) + (if items[names[i]].customAsync.Some? then [names[i]] else [])
  {
    assert names[..i + 1][..i] == names[..i];
  }

  /** Adding an entry after a union is adding it to the right-hand map. */
  lemma UnionUpdate<V>(a: map<string, V>, b: map<string, V>, k: string, v: V)
    ensures (a + b)[k := v] == a + b[k := v]
  {
  }

  /** `_addMultipleControls(controls)` (the constructor and `addControls`), for the
      controls `names` (the object's keys, in order) whose fields are `views` and
      whose `serialize()`d rules are `items`. The names are appended to
      `considered` (a name added twice is listed twice); every new control is
      recorded with its value and rules; then ONLY the new controls are checked,
      against their own values and rules. */
  function AddControls(g: GroupState, names: seq<string>, views: map<string, FieldView>, items: map<string, RuleItem>, eval: SyncEvaluator): (r: GroupState)
    requires forall k :: k in names ==> k in views && k in items
    ensures r.considered == g.considered + names
    ensures forall k :: k in r.fields <==> k in g.fields || k in names
    ensures forall k :: k in names ==>
      var found := eval(NewValues(names, views), NewRules(names, items));
      r.fields[k] == views[k].(errors := if found.Some? then ErrorsFor(found.value, k) else [])
    ensures forall k :: k in g.fields && k !in names ==> r.fields[k] == g.fields[k]
    ensures forall k :: k in r.rules <==> k in g.rules || k in names
    ensures forall k :: k in r.rules ==> r.rules[k] == if k in names then items[k] else g.rules[k]
    ensures forall k :: k in r.values <==> k in g.values || k in names
    ensures forall k :: k in r.values ==> r.values[k] == if k in names then views[k].value else g.values[k]
    ensures r.valid <==> forall k :: k in r.considered && k in r.fields ==> !Blocking(r.fields[k])
    ensures r.renderCallback == g.renderCallback
    ensures r.renders == g.renders + (if r.valid && g.renderCallback.Some? then [true] else [])
  {
    var g0 := g.(considered := g.considered + names);
    var g1 := AddEach(g0, names, views, items);
    AddEachAdded(g, names, views, items);
    SyncRevalidate(g1, names, NewValues(names, views), NewRules(names, items), eval)
  }

  /** The facts `AddEach` establishes, as a relation between the group before
      (with the names already appended to `considered`) and after. */
  ghost predicate Added(g: GroupState, g1: GroupState, names: seq<string>, views: map<string, FieldView>, items: map<string, RuleItem>)
    requires forall k :: k in names ==> k in views && k in items
  {
    && g1.considered == g.considered + names
    && (forall k :: k in g1.fields <==> k in g.fields || k in names)
    && (forall k :: k in g1.fields ==> g1.fields[k] == if k in names then views[k] else g.fields[k])
    && (forall k :: k in g1.values <==> k in g.values || k in names)
    && (forall k :: k in g1.values ==> g1.values[k] == if k in names then views[k].value else g.values[k])
    && (forall k :: k in g1.rules <==> k in g.rules || k in names)
    && (forall k :: k in g1.rules ==> g1.rules[k] == if k in names then items[k] else g.rules[k])
    && (forall k :: k in g1.customRuleKeys <==> k in g.customRuleKeys || (k in names && OnlyCustom(items[k])))
    && (forall k :: k in g1.customAsyncRuleKeys <==> k in g.customAsyncRuleKeys || (k in names && items[k].customAsync.Some?))
  }

  lemma AddKeepsWellFormed(g: GroupState, g1: GroupState, names: seq<string>, views: map<string, FieldView>, items: map<string, RuleItem>)
    requires WellFormed(g)
    requires forall k :: k in names ==> k in views && k in items
    requires Added(g, g1, names, views, items)
    ensures WellFormed(g1)
  {
    AddKeepsKeys(g, g1, names, views, items);
    AddKeepsValues(g, g1, names, views, items);
    AddKeepsLists(g, g1, names, views, items);
  }

  lemma AddKeepsKeys(g: GroupState, g1: GroupState, names: seq<string>, views: map<string, FieldView>, items: map<string, RuleItem>)
    requires forall k :: k in g.fields <==> k in g.considered
    requires g.rules.Keys == g.fields.Keys && g.values.Keys == g.fields.Keys
    requires forall k :: k in names ==> k in views && k in items
    requires Added(g, g1, names, views, items)
    ensures forall k :: k in g1.fields <==> k in g1.considered
    ensures g1.rules.Keys == g1.fields.Keys && g1.values.Keys == g1.fields.Keys
  {
  }

  lemma AddKeepsValues(g: GroupState, g1: GroupState, names: seq<string>, views: map<string, FieldView>, items: map<string, RuleItem>)
    requires g.values.Keys == g.fields.Keys
    requires forall k :: k in g.fields ==> g.values[k] == g.fields[k].value
    requires forall k :: k in names ==> k in views && k in items
    requires Added(g, g1, names, views, items)
    ensures forall k :: k in g1.fields ==> k in g1.values && g1.values[k] == g1.fields[k].value
  {
  }

  lemma AddKeepsLists(g: GroupState, g1: GroupState, names: seq<string>, views: map<string, FieldView>, items: map<string, RuleItem>)
    requires forall k :: k in g.customRuleKeys ==> k in g.fields
    requires forall k :: k in g.customAsyncRuleKeys ==> k in g.fields
    requires forall k :: k in g.rules && OnlyCustom(g.rules[k]) ==> k in g.customRuleKeys
    requires forall k :: k in g.rules && g.rules[k].customAsync.Some? ==> k in g.customAsyncRuleKeys
    requires forall k :: k in names ==> k in views && k in items
    requires Added(g, g1, names, views, items)
    ensures forall k :: k in g1.customRuleKeys ==> k in g1.fields
    ensures forall k :: k in g1.customAsyncRuleKeys ==> k in g1.fields
    ensures forall k :: k in g1.rules && OnlyCustom(g1.rules[k]) ==> k in g1.customRuleKeys
    ensures forall k :: k in g1.rules && g1.rules[k].customAsync.Some? ==> k in g1.customAsyncRuleKeys
  {
  }

  // ---------------------------------------------------------------------------
  // Validating one field on an event

  /** The control an event is about: `data-validate-control`, else
      `validate-control`, else the element's `name`, each only when non-empty. */
  function ResolveName(t: EventTarget): (n: Option<string>)
    ensures TruthyText(t.dataValidateControl) ==> n == t.dataValidateControl
    ensures !TruthyText(t.dataValidateControl) && TruthyText(t.validateControl) ==> n == t.validateControl
    ensures !TruthyText(t.dataValidateControl) && !TruthyText(t.validateControl) ==> n == t.name
  {
    var attribute := if TruthyText(t.dataValidateControl) then t.dataValidateControl else t.validateControl;
    if TruthyText(attribute) then attribute else t.name
  }

  /** The value an event carries: an unchecked checkbox carries `null`. */
  function EventValue(t: EventTarget): (v: Option<string>)
    ensures t.kind == Some("checkbox") && !t.checked ==> v == None
    ensures t.kind != Some("checkbox") || t.checked ==> v == t.value
  {
    if t.kind == Some("checkbox") && !t.checked then None else t.value
  }

  /** `toValidateRules`: the rules with the asynchronous rule removed from every
      asynchronous control except `name`. In a well-formed group the edited
      control is therefore the only one whose asynchronous rule runs. */
  function StripAsync(rules: FormRules, asyncKeys: seq<string>, name: string): (r: FormRules)
    ensures r.Keys == rules.Keys
    ensures forall k :: k in r ==> AgreeExcept(rules[k], r[k], CustomAsyncKind)
    ensures forall k :: k in r ==> (r[k].customAsync.Some? <==> rules[k].customAsync.Some? && (k == name || k !in asyncKeys))
    ensures (forall k :: k in rules && rules[k].customAsync.Some? ==> k in asyncKeys) ==>
      forall k :: k in r && r[k].customAsync.Some? ==> k == name
  {
    var r := map k | k in rules :: if k in asyncKeys && k != name then rules[k].(customAsync := None) else rules[k];
    assert forall k :: k in r ==> AgreeExcept(rules[k], r[k], CustomAsyncKind) by {
      forall k | k in r ensures AgreeExcept(rules[k], r[k], CustomAsyncKind) {
        StripCustomAsyncKeys(rules[k]);
      }
    }
    r
  }

  /** `err || {}` for the error object an outcome carries. */
  function Found(outcome: AsyncOutcome): ErrorMap {
    if outcome.Rejected? then outcome.errors else map[]
  }

  /** What the `then` or `catch` handler does to the controls once
      `validate.async` settles for the edited control `name`. Resolved: the
      control is touched and cleared. Rejected: it is touched and shows its own
      messages. Cancelled: it is marked loading. Thrown: nothing. */
  function Answer(fields: map<string, FieldView>, name: string, outcome: AsyncOutcome): (f: map<string, FieldView>)
    ensures f.Keys == fields.Keys
    ensures forall k :: k in f && k != name ==> f[k] == fields[k]
    ensures forall k :: k in f ==> f[k].value == fields[k].value
    ensures name in f && (outcome.Resolved? || outcome.Rejected?) ==>
      f[name].touched && f[name].errors == ErrorsFor(Found(outcome), name)
    ensures outcome.Thrown? ==> f == fields
  {
    match outcome
    case Resolved => EditAt(fields, name, TouchErrors(map[]))
    case Cancelled => EditAt(fields, name, Loading(true))
    case Rejected(errors) => EditAt(fields, name, TouchErrors(errors))
    case Thrown => fields
  }

  /** The whole `then`/`catch`/`finally` chain: after the handler, `finally`
      marks each custom-only control touched with the messages found for it
      (none unless the outcome was a rejection) and sets the edited control's
      loading flag, which stays up only for a cancelled validation. */
  function SettleFields(fields: map<string, FieldView>, name: string, customKeys: seq<string>, outcome: AsyncOutcome): (f: map<string, FieldView>)
    ensures f.Keys == fields.Keys
    ensures name in f ==> f[name].loading == outcome.Cancelled?
    ensures forall k :: k in f && k != name && k !in customKeys ==> f[k] == fields[k]
    ensures forall k :: k in f ==> f[k].value == fields[k].value
  {
    var f2 := EditEach(Answer(fields, name, outcome), customKeys, TouchErrors(Found(outcome)));
    EditAt(f2, name, Loading(outcome.Cancelled?))
  }

  /** The edited control, once settled, is touched and shows its own messages
      when the check resolved or was rejected; when the check threw it only
      stops loading, unless it is custom-only itself. */
  lemma SettledEdited(fields: map<string, FieldView>, name: string, customKeys: seq<string>, outcome: AsyncOutcome)
    requires name in fields
    ensures var f := SettleFields(fields, name, customKeys, outcome);
      && ((outcome.Resolved? || outcome.Rejected?) ==> f[name].touched && f[name].errors == ErrorsFor(Found(outcome), name))
      && (outcome.Thrown? && name !in customKeys ==> f[name] == fields[name].(loading := false))
  {
    var f1 := Answer(fields, name, outcome);
    var f2 := EditEach(f1, customKeys, TouchErrors(Found(outcome)));
    assert SettleFields(fields, name, customKeys, outcome)[name] == f2[name].(loading := outcome.Cancelled?);
  }

  /** Every custom-only control, once settled, is touched and shows the
      messages found for it (none unless the check was rejected). */
  lemma SettledCustom(fields: map<string, FieldView>, name: string, customKeys: seq<string>, outcome: AsyncOutcome)
    ensures var f := SettleFields(fields, name, customKeys, outcome);
      forall k :: k in customKeys && k in f ==> f[k].touched && f[k].errors == ErrorsFor(Found(outcome), k)
  {
    var f1 := Answer(fields, name, outcome);
    var f2 := EditEach(f1, customKeys, TouchErrors(Found(outcome)));
    assert SettleFields(fields, name, customKeys, outcome) == EditAt(f2, name, Loading(outcome.Cancelled?));
  }

  /** The settled handler: the controls settle, validity is recomputed and the
      form renders. A cancelled validation leaves the form invalid. */
  function Settle(g: GroupState, name: string, outcome: AsyncOutcome): (r: GroupState)
    ensures SameBookkeeping(g, r)
    ensures r.fields == SettleFields(g.fields, name, g.customRuleKeys, outcome)
    ensures r.valid <==> forall k :: k in g.considered && k in r.fields ==> !Blocking(r.fields[k])
    ensures outcome.Cancelled? && name in g.considered && name in g.fields ==> !r.valid
    ensures r.renders == g.renders + (if g.renderCallback.None? then [] else if r.valid then [true, true] else [false])
  {
    var g3 := g.(fields := SettleFields(g.fields, name, g.customRuleKeys, outcome));
    Render(UpdateValidState(g3))
  }

  /** The controls once the event's value is stored in the edited control and,
      when it has an asynchronous rule, its loading flag is raised. */
  function PrepareFields(fields: map<string, FieldView>, name: string, value: Option<string>, async: bool): (f: map<string, FieldView>)
    ensures f.Keys == fields.Keys
    ensures name in f ==> f[name] == fields[name].(value := value, loading := async || fields[name].loading)
    ensures forall k :: k in f && k != name ==> f[k] == fields[k]
  {
    var f1 := EditAt(fields, name, Assign(map[name := value]));
    if async then EditAt(f1, name, Loading(true)) else f1
  }

  /** The handler up to the asynchronous check: the value is stored; a control
      with an asynchronous rule is marked loading, validity is recomputed and the
      form renders. */
  function Prepare(g: GroupState, name: string, value: Option<string>): (r: GroupState)
    ensures r.values == g.values[name := value]
    ensures r.considered == g.considered && r.rules == g.rules && r.renderCallback == g.renderCallback
    ensures r.customRuleKeys == g.customRuleKeys && r.customAsyncRuleKeys == g.customAsyncRuleKeys
    ensures r.fields == PrepareFields(g.fields, name, value, name in g.rules && g.rules[name].customAsync.Some?)
    ensures !(name in g.rules && g.rules[name].customAsync.Some?) ==> r.valid == g.valid && r.renders == g.renders
    ensures name in g.rules && g.rules[name].customAsync.Some? ==>
      && (r.valid <==> forall k :: k in r.considered && k in r.fields ==> !Blocking(r.fields[k]))
      && (name in g.considered && name in g.fields ==> !r.valid)
      && r.renders == g.renders + (if g.renderCallback.None? then [] else if r.valid then [true, true] else [false])
  {
    var async := name in g.rules && g.rules[name].customAsync.Some?;
    var g1 := g.(values := g.values[name := value], fields := PrepareFields(g.fields, name, value, async));
    if async then Render(UpdateValidState(g1)) else g1
  }

  /** `validate(event)`, the deferred handler run to completion. An event about
      no considered control changes nothing. Otherwise the control's value is
      stored; the evaluator checks all values against the rules with every
      other control's asynchronous rule removed; and its outcome is settled. */
  function Validate(g: GroupState, t: EventTarget, eval: AsyncEvaluator): (r: GroupState)
    ensures ResolveName(t).None? || ResolveName(t).value !in g.considered ==> r == g
    ensures r.fields.Keys == g.fields.Keys
    ensures ResolveName(t).Some? && ResolveName(t).value in g.considered && ResolveName(t).value in g.fields ==>
      var name := ResolveName(t).value;
      var values := g.values[name := EventValue(t)];
      var outcome := eval(values, StripAsync(g.rules, g.customAsyncRuleKeys, name));
      && r.values == values && r.rules == g.rules && r.considered == g.considered
      && r.fields[name].value == EventValue(t)
      && r.fields[name].loading == outcome.Cancelled?
      && (outcome.Cancelled? ==> !r.valid)
      && (forall k :: k in g.fields && k != name && k !in g.customRuleKeys ==> r.fields[k] == g.fields[k])
  {
    var resolved := ResolveName(t);
    if resolved.None? || resolved.value !in g.considered then g
    else
      var name := resolved.value;
      var g2 := Prepare(g, name, EventValue(t));
      Settle(g2, name, eval(g2.values, StripAsync(g2.rules, g2.customAsyncRuleKeys, name)))
  }

  /** The messages `validate(event)` leaves behind: the edited control, unless
      the check was cancelled or threw, is touched and shows the messages found
      for it, and so does every custom-only control. */
  lemma ValidateMessages(g: GroupState, t: EventTarget, eval: AsyncEvaluator)
    requires ResolveName(t).Some? && ResolveName(t).value in g.considered && ResolveName(t).value in g.fields
    ensures var name := ResolveName(t).value;
      var r := Validate(g, t, eval);
      var outcome := eval(g.values[name := EventValue(t)], StripAsync(g.rules, g.customAsyncRuleKeys, name));
      && (outcome.Resolved? || outcome.Rejected? ==>
            r.fields[name].touched && r.fields[name].errors == ErrorsFor(Found(outcome), name))
      && (forall k :: k in g.customRuleKeys && k in g.fields ==> r.fields[k].touched && r.fields[k].errors == ErrorsFor(Found(outcome), k))
  {
    var name := ResolveName(t).value;
    var g2 := Prepare(g, name, EventValue(t));
    var outcome := eval(g2.values, StripAsync(g2.rules, g2.customAsyncRuleKeys, name));
    assert Validate(g, t, eval).fields == SettleFields(g2.fields, name, g2.customRuleKeys, outcome);
    SettledEdited(g2.fields, name, g2.customRuleKeys, outcome);
    SettledCustom(g2.fields, name, g2.customRuleKeys, outcome);
  }

  // ---------------------------------------------------------------------------
  // Every operation keeps a group well formed

  lemma TouchKeepsWellFormed(g: GroupState, name: string)
    requires WellFormed(g) && name in g.fields
    ensures Touch(g, name).Some? && WellFormed(Touch(g, name).value)
    ensures HonestValidity(g) ==> HonestValidity(Touch(g, name).value)
  {
    SameBookkeepingWellFormed(g, Touch(g, name).value);
  }

  lemma ToggleTouchedKeepsWellFormed(g: GroupState, touched: bool)
    requires WellFormed(g)
    ensures WellFormed(ToggleTouched(g, touched))
    ensures HonestValidity(g) ==> HonestValidity(ToggleTouched(g, touched))
  {
    SameBookkeepingWellFormed(g, ToggleTouched(g, touched));
  }

  lemma ResetKeepsWellFormed(g: GroupState)
    requires WellFormed(g)
    ensures WellFormed(Reset(g)) && HonestValidity(Reset(g))
  {
    SameBookkeepingWellFormed(g, Reset(g));
  }

  /** In a well-formed group `updateValues` takes over exactly the given values
      of the controls, and the group stays well formed. */
  lemma UpdateValuesKeepsWellFormed(g: GroupState, incoming: Values, eval: SyncEvaluator)
    requires WellFormed(g)
    ensures var r := UpdateValues(g, incoming, eval);
      && WellFormed(r) && HonestValidity(r)
      && r.values.Keys == g.values.Keys
      && forall k :: k in g.values ==> r.values[k] == if k in incoming then incoming[k] else g.values[k]
  {
    var g1 := AssignConsidered(g, incoming);
    AssignConsideredKeepsWellFormed(g, incoming, g1);
    SyncRevalidateKeepsWellFormed(g1, g1.considered, g1.values, g1.rules, eval);
  }

  lemma ForgetKeepsWellFormed(g: GroupState, name: string)
    requires WellFormed(g)
    ensures WellFormed(Forget(g, name))
  {
  }

  lemma RemoveOneKeepsWellFormed(g: GroupState, name: string)
    requires WellFormed(g)
    ensures WellFormed(RemoveOne(g, name))
    ensures HonestValidity(g) ==> HonestValidity(RemoveOne(g, name))
  {
  }

  /** In a well-formed group `removeControls` leaves no trace of any listed name
      and keeps the group well formed. */
  lemma {:induction false} RemoveAllKeepsWellFormed(g: GroupState, names: seq<string>)
    requires WellFormed(g)
    ensures var r := RemoveAll(g, names);
      && WellFormed(r)
      && (forall k :: k in names ==> k !in r.fields && k !in r.rules && k !in r.values)
      && (forall k :: k in names ==> k !in r.customRuleKeys && k !in r.customAsyncRuleKeys)
    decreases |names|
  {
    if names != [] {
      var prefix := names[..|names| - 1];
      var last := names[|names| - 1];
      assert forall k :: k in names <==> k in prefix || k == last by {
        assert names == prefix + [last];
      }
      RemoveAllKeepsWellFormed(g, prefix);
      RemoveOneKeepsWellFormed(RemoveAll(g, prefix), last);
    }
  }

  lemma AddControlsKeepsWellFormed(g: GroupState, names: seq<string>, views: map<string, FieldView>, items: map<string, RuleItem>, eval: SyncEvaluator)
    requires WellFormed(g)
    requires forall k :: k in names ==> k in views && k in items
    ensures WellFormed(AddControls(g, names, views, items, eval)) && HonestValidity(AddControls(g, names, views, items, eval))
  {
    var g1 := AddEach(g.(considered := g.considered + names), names, views, items);
    AddEachAdded(g, names, views, items);
    AddKeepsWellFormed(g, g1, names, views, items);
    SyncRevalidateKeepsWellFormed(g1, names, NewValues(names, views), NewRules(names, items), eval);
  }

  lemma SyncRevalidateKeepsWellFormed(g: GroupState, keys: seq<string>, values: Values, rules: FormRules, eval: SyncEvaluator)
    requires WellFormed(g)
    ensures WellFormed(SyncRevalidate(g, keys, values, rules, eval)) && HonestValidity(SyncRevalidate(g, keys, values, rules, eval))
  {
    SameBookkeepingWellFormed(g, SyncRevalidate(g, keys, values, rules, eval));
  }

  lemma PrepareKeepsWellFormed(g: GroupState, name: string, value: Option<string>)
    requires WellFormed(g) && name in g.fields
    ensures WellFormed(Prepare(g, name, value))
    ensures HonestValidity(g) ==> HonestValidity(Prepare(g, name, value))
  {
    var async := name in g.rules && g.rules[name].customAsync.Some?;
    var g1 := g.(values := g.values[name := value], fields := PrepareFields(g.fields, name, value, async));
    forall k | k in g1.fields ensures g1.values[k] == g1.fields[k].value {
    }
    ValuesFollowFields(g, g1);
    if async {
      assert Prepare(g, name, value) == Render(UpdateValidState(g1));
      SameBookkeepingWellFormed(g1, Render(UpdateValidState(g1)));
    } else {
      assert Prepare(g, name, value) == g1;
    }
  }

  lemma SettleKeepsWellFormed(g: GroupState, name: string, outcome: AsyncOutcome)
    requires WellFormed(g)
    ensures WellFormed(Settle(g, name, outcome)) && HonestValidity(Settle(g, name, outcome))
  {
    SameBookkeepingWellFormed(g, Settle(g, name, outcome));
  }

  lemma ValidateKeepsWellFormed(g: GroupState, t: EventTarget, eval: AsyncEvaluator)
    requires WellFormed(g)
    ensures WellFormed(Validate(g, t, eval))
    ensures HonestValidity(g) ==> HonestValidity(Validate(g, t, eval))
  {
    var resolved := ResolveName(t);
    if resolved.Some? && resolved.value in g.considered {
      var name := resolved.value;
      var g2 := Prepare(g, name, EventValue(t));
      var outcome := eval(g2.values, StripAsync(g2.rules, g2.customAsyncRuleKeys, name));
      assert Validate(g, t, eval) == Settle(g2, name, outcome);
      PrepareKeepsWellFormed(g, name, EventValue(t));
      SettleKeepsWellFormed(g2, name, outcome);
    }
  }

  // ---------------------------------------------------------------------------
  // Properties across operations

  /** `touchAll` and `unTouchAll` do not accumulate: the last one decides every
      considered control's `touched` flag. */
  lemma LastToggleWins(g: GroupState, first: bool, second: bool)
    ensures ToggleTouched(ToggleTouched(g, first), second).fields == ToggleTouched(g, second).fields
  {
    var once := ToggleTouched(g, first);
    assert once.fields == EditEach(g.fields, g.considered, SetTouched(first));
    assert ToggleTouched(once, second).fields == EditEach(once.fields, g.considered, SetTouched(second));
    TouchedTwice(g.fields, g.considered, first, second);
  }

  /** Setting the `touched` flag of the same controls twice leaves the second value. */
  lemma TouchedTwice(fields: map<string, FieldView>, keys: seq<string>, first: bool, second: bool)
    ensures EditEach(EditEach(fields, keys, SetTouched(first)), keys, SetTouched(second)) == EditEach(fields, keys, SetTouched(second))
  {
    var once := EditEach(fields, keys, SetTouched(first));
    var twice := EditEach(once, keys, SetTouched(second));
    var direct := EditEach(fields, keys, SetTouched(second));
    forall k | k in twice ensures twice[k] == direct[k] {
      if k in keys {
        assert twice[k] == once[k].(touched := second);
      }
    }
  }

  /** Removing controls that were just added (under fresh names) gives back the
      group's controls, rules and values: `removeControls` undoes `addControls`... */
  lemma RemoveUndoesAdd(g: GroupState, names: seq<string>, views: map<string, FieldView>, items: map<string, RuleItem>, eval: SyncEvaluator)
    requires WellFormed(g)
    requires forall k :: k in names ==> k in views && k in items && k !in g.fields
    ensures var r := RemoveAll(AddControls(g, names, views, items, eval), names);
      r.fields == g.fields && r.rules == g.rules && r.values == g.values
  {
    var added := AddControls(g, names, views, items, eval);
    var r := RemoveAll(added, names);
    assert forall k :: k in names ==> k in added.considered;
    Restored(g.fields, added.fields, r.fields, names);
    Restored(g.rules, added.rules, r.rules, names);
    Restored(g.values, added.values, r.values, names);
  }

  /** ... and its considered names, up to repetition. */
  lemma RemoveUndoesAddConsidered(g: GroupState, names: seq<string>, views: map<string, FieldView>, items: map<string, RuleItem>, eval: SyncEvaluator)
    requires WellFormed(g)
    requires forall k :: k in names ==> k in views && k in items && k !in g.fields
    ensures var r := RemoveAll(AddControls(g, names, views, items, eval), names);
      forall k :: k in r.considered <==> k in g.considered
  {
    var r := RemoveAll(AddControls(g, names, views, items, eval), names);
    forall k ensures k in r.considered <==> k in g.considered {
      if k in names { assert k !in g.considered; }
    }
  }

  /** A map that gained entries under `names` and then lost exactly those is
      the map it started as. */
  lemma Restored<V>(before: map<string, V>, added: map<string, V>, after: map<string, V>, names: seq<string>)
    requires forall k :: k in names ==> k !in before && k !in after
    requires forall k :: k in added <==> k in before || k in names
    requires forall k :: k in before && k !in names ==> added[k] == before[k]
    requires after.Keys <= added.Keys
    requires forall k :: k !in names && k in added ==> k in after && after[k] == added[k]
    ensures after == before
  {
    assert after.Keys == before.Keys;
  }

}

=== FILE: Js.dfy ===
/** The small part of JavaScript's value model the library inspects:
    truthiness, `typeof x === 'object'` and property reads. */
module Js {
  import opened Wrappers

  /** An opaque handle standing for a JavaScript function value: a custom rule,
      a custom asynchronous rule, a length tokenizer, an equality comparator
      or a render callback. The model never calls one. */
  datatype FunctionToken = FunctionToken(id: nat)

  /** A JavaScript value. Numbers are reals; `NaN` is its own case; a regular
      expression object is kept by its source text and flags. */
  datatype JsValue =
    | Undefined
    | Null
    | Bool(b: bool)
    | Number(x: real)
    | NaN
    | Str(s: string)
    | Function(f: FunctionToken)
    | Array(items: seq<JsValue>)
    | Object(props: map<string, JsValue>)
    | RegExp(source: string, flags: string)

  /** JavaScript truthiness: `undefined`, `null`, `false`, `0`, `NaN` and `''`
      are falsy, everything else (every function, array and object) is truthy. */
  predicate Truthy(v: JsValue) {
    match v
    case Undefined => false
    case Null => false
    case Bool(b) => b
    case Number(x) => x != 0.0
    case NaN => false
    case Str(s) => s != ""
    case Function(_) => true
    case Array(_) => true
    case Object(_) => true
    case RegExp(_, _) => true
  }

  /** `typeof v === 'object'` (true of `null`, arrays, plain objects and
      regular expressions). */
  predicate IsObject(v: JsValue) {
    v.Null? || v.Array? || v.Object? || v.RegExp?
  }

  /** `v[key]` for a plain object; arrays, regular expressions and primitives
      have no own properties the library reads, so they give `undefined`. */
  function Property(v: JsValue, key: string): JsValue {
    if v.Object? && key in v.props then v.props[key] else Undefined
  }

  /** An optional message argument is truthy when given and non-empty. */
  predicate TruthyText(m: Option<string>) {
    m.Some? && m.value != ""
  }

  /** The JavaScript value an optional field holds (`undefined` when absent). */
  function OfText(m: Option<string>): JsValue {
    if m.Some? then Str(m.value) else Undefined
  }

  function OfNumber(n: Option<real>): JsValue {
    if n.Some? then Number(n.value) else Undefined
  }

  function OfFlag(b: Option<bool>): JsValue {
    if b.Some? then Bool(b.value) else Undefined
  }

  function OfFunction(f: Option<FunctionToken>): JsValue {
    if f.Some? then Function(f.value) else Undefined
  }

  /** Reading `key` from an object literal whose properties are `props`. */
  function Lookup(props: map<string, JsValue>, key: string): JsValue {
    if key in props then props[key] else Undefined
  }

  /** The property write `if (text) { obj[key] = text; }`: one assignment
      when the text is truthy, none otherwise. */
  function TextWrite<K(==)>(key: K, text: Option<string>): (w: map<K, JsValue>)
    ensures key in w <==> TruthyText(text)
    ensures w.Keys <= {key}
    ensures key in w ==> w[key] == Str(text.value)
  {
    if TruthyText(text) then map[key := Str(text.value)] else map[]
  }

  /** The field `if (text) { obj.f = text; }` leaves behind, given its prior content. */
  function IfTruthy(text: Option<string>, prior: Option<string>): Option<string> {
    if TruthyText(text) then text else prior
  }

  /** The property write `if (flag !== undefined) { obj[key] = flag; }`. */
  function FlagWrite<K(==)>(key: K, flag: Option<bool>): (w: map<K, JsValue>)
    ensures key in w <==> flag.Some?
    ensures w.Keys <= {key}
    ensures key in w ==> w[key] == Bool(flag.value)
  {
    if flag.Some? then map[key := Bool(flag.value)] else map[]
  }
}

=== FILE: Rules.dfy ===
/** The rule record a ControlRules builder accumulates for one field
    (`IFormRuleItem` and its sub-records), together with a projection of each
    sub-record onto its JavaScript properties, so that a builder step can be
    specified the way the library writes it: as property assignments on an
    object. */
module Rules {
  import opened Wrappers
  import opened Js

  /** A JavaScript number used as a bound (no NaN or infinities). */
  type JsNumber = real

  // ---------------------------------------------------------------------------
  // Sub-records

  /** `datetime` (and `date`): `{dateOnly, notValid, message, latest, tooLate, earliest, earliet, tooEarly}`.
      `earliest` is validate.js's lower bound, which only a raw record sets;
      `earliet` is the key the builder actually writes. */
  datatype DatetimeRule = DatetimeRule(
    dateOnly: Option<bool>,
    notValid: Option<string>,
    message: Option<string>,
    latest: Option<JsValue>,
    tooLate: Option<string>,
    earliest: Option<JsValue>,
    earliet: Option<JsValue>,
    tooEarly: Option<string>)

  const EmptyDatetime := DatetimeRule(None, None, None, None, None, None, None, None)

  function DatetimeProp(d: DatetimeRule, key: string): JsValue {
    if key == "dateOnly" then OfFlag(d.dateOnly)
    else if key == "notValid" then OfText(d.notValid)
    else if key == "message" then OfText(d.message)
    else if key == "latest" then d.latest.GetOr(Undefined)
    else if key == "tooLate" then OfText(d.tooLate)
    else if key == "earliest" then d.earliest.GetOr(Undefined)
    else if key == "earliet" then d.earliet.GetOr(Undefined)
    else if key == "tooEarly" then OfText(d.tooEarly)
    else Undefined
  }

  /** `after` is `before` with exactly the property assignments `writes`. */
  ghost predicate DatetimeAssigned(before: DatetimeRule, after: DatetimeRule, writes: map<string, JsValue>) {
    forall key :: DatetimeProp(after, key) == if key in writes then writes[key] else DatetimeProp(before, key)
  }

  /** `length`: `{is, minimum, maximum, notValid, tooLong, tooShort, wrongLength, message, tokenizer}`.
      The `is` key is held in `exact` (`is` is a Dafny keyword). */
  datatype LengthRule = LengthRule(
    exact: Option<JsNumber>,
    minimum: Option<JsNumber>,
    maximum: Option<JsNumber>,
    notValid: Option<string>,
    tooLong: Option<string>,
    tooShort: Option<string>,
    wrongLength: Option<string>,
    message: Option<string>,
    tokenizer: Option<FunctionToken>)

  const EmptyLength := LengthRule(None, None, None, None, None, None, None, None, None)

  function LengthProp(l: LengthRule, key: string): JsValue {
    if key == "is" then OfNumber(l.exact)
    else if key == "minimum" then OfNumber(l.minimum)
    else if key == "maximum" then OfNumber(l.maximum)
    else if key == "notValid" then OfText(l.notValid)
    else if key == "tooLong" then OfText(l.tooLong)
    else if key == "tooShort" then OfText(l.tooShort)
    else if key == "wrongLength" then OfText(l.wrongLength)
    else if key == "message" then OfText(l.message)
    else if key == "tokenizer" then OfFunction(l.tokenizer)
    else Undefined
  }

  ghost predicate LengthAssigned(before: LengthRule, after: LengthRule, writes: map<string, JsValue>) {
    forall key :: LengthProp(after, key) == if key in writes then writes[key] else LengthProp(before, key)
  }

  /** `numericality`: the comparison bounds, the integer/strict/parity flags and one
      message per failed condition. */
  datatype NumericalityRule = NumericalityRule(
    onlyInteger: Option<bool>,
    strict: Option<bool>,
    greaterThan: Option<JsNumber>,
    greaterThanOrEqualTo: Option<JsNumber>,
    equalTo: Option<JsNumber>,
    lessThanOrEqualTo: Option<JsNumber>,
    lessThan: Option<JsNumber>,
    divisibleBy: Option<JsNumber>,
    odd: Option<bool>,
    even: Option<bool>,
    notValid: Option<string>,
    notInteger: Option<string>,
    notGreaterThan: Option<string>,
    notGreaterThanOrEqualTo: Option<string>,
    notEqualTo: Option<string>,
    notLessThan: Option<string>,
    notLessThanOrEqualTo: Option<string>,
    notDivisibleBy: Option<string>,
    notOdd: Option<string>,
    notEven: Option<string>,
    message: Option<string>)

  const EmptyNumericality := NumericalityRule(
    None, None, None, None, None, None, None, None, None, None,
    None, None, None, None, None, None, None, None, None, None, None)

  /** The property names of a `numericality` object. With twenty-one of them, they are
      an enumeration here rather than strings; `NumericalityKeyName` spells each one. */
  datatype NumericalityKey =
    | OnlyIntegerKey | StrictKey | GreaterThanKey | GreaterThanOrEqualToKey
    | EqualToKey | LessThanOrEqualToKey | LessThanKey | DivisibleByKey
    | OddKey | EvenKey | NotValidKey | NotIntegerKey
    | NotGreaterThanKey | NotGreaterThanOrEqualToKey | NotEqualToKey | NotLessThanKey
    | NotLessThanOrEqualToKey | NotDivisibleByKey | NotOddKey | NotEvenKey
    | MessageKey

  function NumericalityKeyName(k: NumericalityKey): string {
    match k
    case OnlyIntegerKey => "onlyInteger"
    case StrictKey => "strict"
    case GreaterThanKey => "greaterThan"
    case GreaterThanOrEqualToKey => "greaterThanOrEqualTo"
    case EqualToKey => "equalTo"
    case LessThanOrEqualToKey => "lessThanOrEqualTo"
    case LessThanKey => "lessThan"
    case DivisibleByKey => "divisibleBy"
    case OddKey => "odd"
    case EvenKey => "even"
    case NotValidKey => "notValid"
    case NotIntegerKey => "notInteger"
    case NotGreaterThanKey => "notGreaterThan"
    case NotGreaterThanOrEqualToKey => "notGreaterThanOrEqualTo"
    case NotEqualToKey => "notEqualTo"
    case NotLessThanKey => "notLessThan"
    case NotLessThanOrEqualToKey => "notLessThanOrEqualTo"
    case NotDivisibleByKey => "notDivisibleBy"
    case NotOddKey => "notOdd"
    case NotEvenKey => "notEven"
    case MessageKey => "message"
  }

  /** Reading property `k` of a numericality object. */
  function NumericalityProp(n: NumericalityRule, k: NumericalityKey): JsValue {
    match k
    case OnlyIntegerKey => OfFlag(n.onlyInteger)
    case StrictKey => OfFlag(n.strict)
    case GreaterThanKey => OfNumber(n.greaterThan)
    case GreaterThanOrEqualToKey => OfNumber(n.greaterThanOrEqualTo)
    case EqualToKey => OfNumber(n.equalTo)
    case LessThanOrEqualToKey => OfNumber(n.lessThanOrEqualTo)
    case LessThanKey => OfNumber(n.lessThan)
    case DivisibleByKey => OfNumber(n.divisibleBy)
    case OddKey => OfFlag(n.odd)
    case EvenKey => OfFlag(n.even)
    case NotValidKey => OfText(n.notValid)
    case NotIntegerKey => OfText(n.notInteger)
    case NotGreaterThanKey => OfText(n.notGreaterThan)
    case NotGreaterThanOrEqualToKey => OfText(n.notGreaterThanOrEqualTo)
    case NotEqualToKey => OfText(n.notEqualTo)
    case NotLessThanKey => OfText(n.notLessThan)
    case NotLessThanOrEqualToKey => OfText(n.notLessThanOrEqualTo)
    case NotDivisibleByKey => OfText(n.notDivisibleBy)
    case NotOddKey => OfText(n.notOdd)
    case NotEvenKey => OfText(n.notEven)
    case MessageKey => OfText(n.message)
  }

  ghost predicate NumericalityAssigned(before: NumericalityRule, after: NumericalityRule, writes: map<NumericalityKey, JsValue>) {
    forall k :: NumericalityProp(after, k) == if k in writes then writes[k] else NumericalityProp(before, k)
  }

  /** `presence`: `{allowEmpty, message}`. */
  datatype PresenceRule = PresenceRule(allowEmpty: Option<bool>, message: Option<string>)

  function PresenceProp(p: PresenceRule, key: string): JsValue {
    if key == "allowEmpty" then OfFlag(p.allowEmpty)
    else if key == "message" then OfText(p.message)
    else Undefined
  }

  /** `p` reads exactly like the object literal with properties `props`. */
  ghost predicate PresenceIs(p: PresenceRule, props: map<string, JsValue>) {
    forall key :: PresenceProp(p, key) == Lookup(props, key)
  }

  /** `equality`: the other attribute's name alone, or `{attribute, message, comparator}`. */
  datatype EqualityRule =
    | EqualityName(other: string)
    | EqualityOptions(attribute: string, message: Option<string>, comparator: Option<FunctionToken>)

  /** A property read; the string form has none. */
  function EqualityProp(e: EqualityRule, key: string): JsValue {
    if e.EqualityName? then Undefined
    else if key == "attribute" then Str(e.attribute)
    else if key == "message" then OfText(e.message)
    else if key == "comparator" then OfFunction(e.comparator)
    else Undefined
  }

  ghost predicate EqualityIs(e: EqualityRule, props: map<string, JsValue>) {
    e.EqualityOptions? && forall key :: EqualityProp(e, key) == Lookup(props, key)
  }

  /** `exclusion` and `inclusion`: the array or object of values alone, or
      `{within, message}` with `within` such an array or object. */
  datatype WithinRule =
    | WithinValues(values: JsValue)
    | WithinOptions(within: JsValue, message: Option<string>)

  /** A property read; the bare form is read as the object it is. */
  function WithinProp(w: WithinRule, key: string): JsValue {
    if w.WithinValues? then Property(w.values, key)
    else if key == "within" then w.within
    else if key == "message" then OfText(w.message)
    else Undefined
  }

  ghost predicate WithinIs(w: WithinRule, props: map<string, JsValue>) {
    w.WithinOptions? && forall key :: WithinProp(w, key) == Lookup(props, key)
  }

  /** A `format` pattern: its source text, or a regular expression object. */
  datatype Pattern = PatternText(text: string) | PatternRegExp(source: string, flags: string)

  function PatternValue(p: Pattern): JsValue {
    match p
    case PatternText(text) => Str(text)
    case PatternRegExp(source, flags) => RegExp(source, flags)
  }

  /** `format`: the pattern text alone, or `{pattern, flags, message}`. */
  datatype FormatRule =
    | FormatText(text: string)
    | FormatOptions(pattern: Pattern, flags: Option<string>, message: Option<string>)

  /** A property read; the string form has none. */
  function FormatProp(f: FormatRule, key: string): JsValue {
    if f.FormatText? then Undefined
    else if key == "pattern" then PatternValue(f.pattern)
    else if key == "flags" then OfText(f.flags)
    else if key == "message" then OfText(f.message)
    else Undefined
  }

  ghost predicate FormatIs(f: FormatRule, props: map<string, JsValue>) {
    f.FormatOptions? && forall key :: FormatProp(f, key) == Lookup(props, key)
  }

  /** `type`: the type's name alone, or `{type, message}`. */
  datatype TypeRule =
    | TypeName(name: string)
    | TypeOptions(typeName: string, message: Option<string>)

  /** A property read; the string form has none. */
  function TypeProp(t: TypeRule, key: string): JsValue {
    if t.TypeName? then Undefined
    else if key == "type" then Str(t.typeName)
    else if key == "message" then OfText(t.message)
    else Undefined
  }

  ghost predicate TypeIs(t: TypeRule, props: map<string, JsValue>) {
    t.TypeOptions? && forall key :: TypeProp(t, key) == Lookup(props, key)
  }

  /** `email`: `true` or `{message}`. */
  datatype EmailRule = EmailFlag(enabled: bool) | EmailMessage(message: string)

  /** `url`: a boolean or `{message, schemes, allowLocal, allowDataUrl}`. */
  datatype UrlRule =
    | UrlFlag(enabled: bool)
    | UrlOptions(message: Option<string>, schemes: Option<seq<string>>, allowLocal: Option<bool>, allowDataUrl: Option<bool>)

  function OfStrings(s: Option<seq<string>>): JsValue {
    if s.Some? then Array(seq(|s.value|, i requires 0 <= i < |s.value| => Str(s.value[i]))) else Undefined
  }

  function UrlProp(u: UrlRule, key: string): JsValue {
    if u.UrlFlag? then Undefined
    else if key == "message" then OfText(u.message)
    else if key == "schemes" then OfStrings(u.schemes)
    else if key == "allowLocal" then OfFlag(u.allowLocal)
    else if key == "allowDataUrl" then OfFlag(u.allowDataUrl)
    else Undefined
  }

  ghost predicate UrlIs(u: UrlRule, props: map<string, JsValue>) {
    u.UrlOptions? && forall key :: UrlProp(u, key) == Lookup(props, key)
  }

  // ---------------------------------------------------------------------------
  // The whole record

  /** `IFormRuleItem`: at most one configuration per rule kind; `None` is an absent key. */
  datatype RuleItem = RuleItem(
    date: Option<DatetimeRule>,
    datetime: Option<DatetimeRule>,
    email: Option<EmailRule>,
    equality: Option<EqualityRule>,
    exclusion: Option<WithinRule>,
    format: Option<FormatRule>,
    inclusion: Option<WithinRule>,
    length: Option<LengthRule>,
    numericality: Option<NumericalityRule>,
    presence: Option<PresenceRule>,
    typeRule: Option<TypeRule>,
    url: Option<UrlRule>,
    custom: Option<FunctionToken>,
    customAsync: Option<FunctionToken>)

  /** `{}` */
  const NoRules := RuleItem(None, None, None, None, None, None, None, None, None, None, None, None, None, None)

  /** The rule kinds that may key a rule record. */
  datatype RuleKind =
    | DateKind | DatetimeKind | EmailKind | EqualityKind | ExclusionKind | FormatKind | InclusionKind
    | LengthKind | NumericalityKind | PresenceKind | TypeKind | UrlKind | CustomKind | CustomAsyncKind

  /** The property name each kind is stored under. */
  function KindName(k: RuleKind): string {
    match k
    case DateKind => "date"
    case DatetimeKind => "datetime"
    case EmailKind => "email"
    case EqualityKind => "equality"
    case ExclusionKind => "exclusion"
    case FormatKind => "format"
    case InclusionKind => "inclusion"
    case LengthKind => "length"
    case NumericalityKind => "numericality"
    case PresenceKind => "presence"
    case TypeKind => "type"
    case UrlKind => "url"
    case CustomKind => "custom"
    case CustomAsyncKind => "customAsync"
  }

  /** Whether `r` has an own key for rule kind `k`. */
  predicate Has(r: RuleItem, k: RuleKind) {
    match k
    case DateKind => r.date.Some?
    case DatetimeKind => r.datetime.Some?
    case EmailKind => r.email.Some?
    case EqualityKind => r.equality.Some?
    case ExclusionKind => r.exclusion.Some?
    case FormatKind => r.format.Some?
    case InclusionKind => r.inclusion.Some?
    case LengthKind => r.length.Some?
    case NumericalityKind => r.numericality.Some?
    case PresenceKind => r.presence.Some?
    case TypeKind => r.typeRule.Some?
    case UrlKind => r.url.Some?
    case CustomKind => r.custom.Some?
    case CustomAsyncKind => r.customAsync.Some?
  }

  /** `Object.keys(r)`, as a set of rule kinds. */
  function Keys(r: RuleItem): (ks: set<RuleKind>)
    ensures forall k :: k in ks <==> Has(r, k)
  {
    set k: RuleKind | Has(r, k)
  }

  /** The two records hold the same entry under rule kind `kind`. */
  predicate SameEntry(a: RuleItem, b: RuleItem, kind: RuleKind) {
    match kind
    case DateKind => a.date == b.date
    case DatetimeKind => a.datetime == b.datetime
    case EmailKind => a.email == b.email
    case EqualityKind => a.equality == b.equality
    case ExclusionKind => a.exclusion == b.exclusion
    case FormatKind => a.format == b.format
    case InclusionKind => a.inclusion == b.inclusion
    case LengthKind => a.length == b.length
    case NumericalityKind => a.numericality == b.numericality
    case PresenceKind => a.presence == b.presence
    case TypeKind => a.typeRule == b.typeRule
    case UrlKind => a.url == b.url
    case CustomKind => a.custom == b.custom
    case CustomAsyncKind => a.customAsync == b.customAsync
  }

  /** Every rule kind other than `kind` is untouched from `a` to `b`. */
  ghost predicate AgreeExcept(a: RuleItem, b: RuleItem, kind: RuleKind) {
    forall k :: k != kind ==> SameEntry(a, b, k)
  }

  /** A record whose one rule is `custom`. */
  predicate OnlyCustom(r: RuleItem) {
    r.custom.Some? && r == NoRules.(custom := r.custom)
  }

  /** The custom-only predicate is exactly the test
      `controlRules.custom && Object.keys(controlRules).length === 1`
      (src/FormGroup.ts:290), and holds exactly when `custom` is the one key. */
  lemma OnlyCustomIsSoleKey(r: RuleItem)
    ensures OnlyCustom(r) <==> r.custom.Some? && |Keys(r)| == 1
    ensures OnlyCustom(r) <==> Keys(r) == {CustomKind}
  {
    if OnlyCustom(r) {
      assert Keys(r) == {CustomKind};
    } else if r.custom.Some? {
      var other :=
        if r.date.Some? then DateKind else if r.datetime.Some? then DatetimeKind
        else if r.email.Some? then EmailKind else if r.equality.Some? then EqualityKind
        else if r.exclusion.Some? then ExclusionKind else if r.format.Some? then FormatKind
        else if r.inclusion.Some? then InclusionKind else if r.length.Some? then LengthKind
        else if r.numericality.Some? then NumericalityKind else if r.presence.Some? then PresenceKind
        else if r.typeRule.Some? then TypeKind else if r.url.Some? then UrlKind
        else CustomAsyncKind;
      assert Has(r, other);
      assert {CustomKind, other} <= Keys(r);
      SubsetCardinality({CustomKind, other}, Keys(r));
    }
  }

  lemma SubsetCardinality<T>(a: set<T>, b: set<T>)
    requires a <= b
    ensures |a| <= |b|
  {
    assert b == a + (b - a);
  }

  /** Stripping `customAsync` (the destructuring in src/FormGroup.ts:208-209)
      changes that one key and removes it from the record's keys. */
  lemma StripCustomAsyncKeys(r: RuleItem)
    ensures AgreeExcept(r, r.(customAsync := None), CustomAsyncKind)
    ensures Keys(r.(customAsync := None)) == Keys(r) - {CustomAsyncKind}
  {
  }
}

=== FILE: Wrappers.dfy ===
/** The Option type used throughout the model. In the library's own terms `None`
    stands for a JavaScript `undefined` (an absent key or an omitted argument)
    or, for field values, `null`. */
module Wrappers {

  datatype Option<+T> = None | Some(value: T) {

    /** `this ?? default` */
    function GetOr(default: T): T {
      match this
      case Some(v) => v
      case None => default
    }
  }
}
